=== FILE: README.md ===
# PegasusWinterface in Dafny

PegasusWinterface is a small C++/Win32 library for driving another
application's window with synthetic keyboard and mouse input. A caller:

- binds a session to a top-level window, by a fragment of its title or by
  process id;
- hands it timed batches of key or mouse events;
- either lets each execute call run the batches at once (blocking mode), or
  queues them and calls `tick` repeatedly to dispatch whatever has come due
  (non-blocking mode).

Every dispatch attaches to the window's input thread and re-resolves the
stored window identity to a live handle. The resolver may fall back to a
fresh window list. Each event is then translated into the `INPUT` records
of one `SendInput` call.

This project models that core as pure functions over immutable data:

- `WinTypes` (`win_types.dfy`) holds:
  - the Win32 integer widths as bounded subtypes: WORD, DWORD, LONG and `int`;
  - `WinInfo` and the window geometry;
  - key and mouse events, with their constructors' defaults;
  - `std::wstring::find` and the `STD_WSTRING_CONTAINS` macro.
- `Windows` (`windows.dfy`) holds:
  - the window-list snapshot with its 1024-character title buffer and its skipping of untitled windows;
  - the visible-only filter;
  - first-match search;
  - `getWindowHWND` with its title → pid → tid fallback;
  - `getWindowDimensions`.
- `InputRecords` (`input_records.dfy`) holds `sendKey` and `sendMouse`: one event becomes the records of one `SendInput` call.
- `Dispatch` (`dispatch.dfy`) holds `sendKeys` and `sendMouseEvents`: attach, focus whatever the resolver finds, send every event.
- `Scheduler` (`scheduler.dfy`) holds one timing channel. That is a FIFO of timed batches and a restartable millisecond clock, with:
  - the non-blocking drain that `tick` runs;
  - the blocking spin-then-send loop;
  - the execute entry point that chooses between them.
- `Winterface` (`winterface.dfy`) holds the session:
  - bound and blocking flags, stored identity and geometry;
  - a key channel and a mouse channel;
  - `bind` in its three forms, `unbind`, `setBlocking`, `hasEventsInQueue`, `update`, `executeKeys`, `executeMouse` and `tick`.

What the OS reports is passed in as data rather than called:

- A `Desktop` carries the enumerated windows, what `FindWindow` plus
  `GetWindowThreadProcessId` plus `IsWindow` report for a title, and what
  `GetWindowRect` reports for a handle.
- A `Desktop` is a `DesktopState` that Win32 could actually present. No lookup reports the NULL handle as a live window, because `IsWindow(NULL)` is false. Reading the rectangle of the NULL handle fails.
- A channel clock is a finite trace of elapsed-millisecond readings. Each
  time the code reads the clock, one reading is consumed.
- A blocking run whose trace runs out mid-wait reports that it has not
  returned.
- Dispatches and clock restarts are appended to an effect log. Each
  `Send(target, events)` effect stands for one `SendKeys` or
  `SendMouseEvents` call, modelled by `Dispatch.SendKeys` and
  `Dispatch.SendMouseEvents`.

In a few places the code does something other than its names or comments suggest; the model follows the code:

- A timed batch may hold no events at all. It is still dispatched, restarts
  the clock and takes its place in the FIFO.
- A delay is a signed `int` and may be negative. Such a batch is due at once.
- When re-resolution fails, `sendKeys` still sends every event; only the
  focus goes to handle 0 (`Dispatch.SentWhateverTheFocus`).
- `sendKeys` takes the window by value. An identity the resolver replaces is
  dropped, so the session keeps dispatching to its original identity.
- As written, a scroll event sends nothing; see Findings. `InputRecords.MouseInputs` and `Dispatch.SendMouseEvents` keep that behaviour. The corrected translation is `InputRecords.IntendedMouseInputs`, and `Dispatch.IntendedSendMouseEvents` dispatches with it.
- The parameters that default in the headers default here too. `appendToQueue` defaults to false in `Winterface.ExecuteKeys` and `Winterface.ExecuteMouse`, and `allowUpdate` defaults to false in `Windows.GetWindowHandle`.

## Model

| member | source | states |
|---|---|---|
| WinTypes.MakeKey | src/WinAssist.cpp:47-52 | the key event constructor stores exactly the virtual-key code, type, scan-code choice and extended flag it is given |
| WinTypes.KeyDefaults | src/WinAssist.h:46 | a key event given only its virtual-key code is typed, sent by scan code, and not extended |
| WinTypes.MakeMouse | src/WinAssist.h:70-90 | a mouse event built from a type and button starts with zero movement and zero wheel delta, and the button defaults to none |
| WinTypes.DefaultMouse | src/WinAssist.cpp:83-86 | the default mouse event is no event with no button, at zero movement and delta |
| WinTypes.SetMoveValues | src/WinAssist.cpp:92-95 | setting the movement changes dx and dy only; kind, button and delta are kept |
| WinTypes.SetScrollDelta | src/WinAssist.cpp:88-90 | setting the wheel delta changes the delta only; kind, button and movement are kept |
| WinTypes.Find | src/WinAssist.h:16 | title search finds the lowest position at which the query occurs contiguously, and none exactly when it occurs nowhere |
| WinTypes.ContainsIffOccurs | src/WinAssist.h:16 | the containment macro, `WinTypes.Contains` (the search does not return npos), holds exactly when the query occurs at some position of the title |
| WinTypes.EmptyNeedleContained | src/WinAssist.h:16 | an empty query is contained in every title, at position 0 |
| WinTypes.ContainsSelf | src/WinAssist.h:16 | every title contains itself |
| Windows.CapturedTitle | src/WinAssist.cpp:20-34 | the stored title is the whole window text when it fits in the buffer with its terminator, and otherwise the text's first 1023 characters |
| Windows.WindowList | src/WinAssist.cpp:19-41 | the snapshot never holds an untitled window, and holds a window exactly when some enumerated window with a non-empty title captures to it |
| Windows.WindowListAppend | src/WinAssist.cpp:19-41 | enumeration keeps order: two runs of windows snapshot to the first run's entries followed by the second's |
| Windows.VisibleWindows | src/WinAssist.cpp:338-347 | the visible list holds exactly the snapshot entries that are visible |
| Windows.VisibleWindowsAppend | src/WinAssist.cpp:338-347 | filtering keeps snapshot order: it distributes over concatenation |
| Windows.FindFirst | src/PegasusWinterface.cpp:162-171 | the search returns the first entry the predicate accepts, every earlier entry is rejected, and it fails only when none is accepted |
| Windows.GetWindowHandle | src/WinAssist.cpp:385-420 | a lookup is accepted (`Windows.Verified`) when its pid or tid matches the identity and the handle is a live window; at most two title lookups happen; a non-zero handle is always a live window whose pid or tid matches the identity returned; a verified direct lookup is returned unchanged; without updating, a failed lookup gives 0 and keeps the identity; a changed identity comes from the snapshot |
| Windows.FallbackOutcome | src/WinAssist.cpp:397-419 | with the direct lookup rejected, the identity becomes the first snapshot entry that `Windows.FallbackMatches`: its title contains the stored title, or failing that its pid, or failing that its tid, equals the stored one; and is looked up once more without updating; with no such entry the result is 0 |
| Windows.FallbackPicksFirstMatch | src/WinAssist.cpp:400-415 | when some entry matches, the fallback settles on a matching entry with no matching entry before it |
| Windows.NoUpdateByDefault | src/WinAssist.h:151 | called without `allowUpdate`, the resolver looks up only the stored title, never replaces the identity, and gives the verified handle or 0 |
| Windows.ResolveStable | src/WinAssist.cpp:386-392 | an identity that resolved to a handle resolves to the same handle again, with no update |
| Windows.DimensionsOf | src/WinAssist.cpp:423-435 | geometry is all zeros when the rectangle cannot be read; otherwise the corners are the rectangle's, and width and height are the distances between them |
| Windows.WindowDimensions | src/WinAssist.cpp:422-441 | the rectangle read is that of the directly looked-up handle when the lookup is verified; otherwise, since no update is allowed, handle 0 is read, that read fails and the geometry is all zeros |
| InputRecords.DownFlags | src/WinAssist.cpp:142-146 | the press flags hold SCANCODE exactly when the event asks for scan codes, and EXTENDEDKEY exactly when it is extended |
| InputRecords.KeyInputs | src/WinAssist.cpp:133-183 | a `KEVT_NONE` key sends nothing and every other key sends one or two keyboard records; each record carries the key's virtual-key code and scan code, and the event's flags with at most KEYUP added |
| InputRecords.KeyRecordsByType | src/WinAssist.cpp:155-172 | typed is a press then a release whose flags add KEYUP; pressed is a press alone; released is a release alone |
| InputRecords.KeyRoundTrip | src/WinAssist.cpp:133-183 | the records of any real key event decode back to that event |
| InputRecords.KeyInputsInjective | src/WinAssist.cpp:133-183 | two real key events that produce the same records are equal |
| InputRecords.AbsoluteFlags | src/WinAssist.cpp:274-277 | an absolute move always carries ABSOLUTE, carries VIRTUALDESK exactly when it is a desktop move, and carries nothing else |
| InputRecords.MouseInputs | src/WinAssist.cpp:185-304 | a mouse event sends two records for a click, one for any other button or move event, and none otherwise; no record carries wheel data |
| InputRecords.MouseRecordsByType | src/WinAssist.cpp:194-284 | the exact records for each mouse event type, with the button mapped to its own DOWN or UP flag and ABSOLUTE plus VIRTUALDESK for desktop moves |
| InputRecords.ScrollIsDropped | src/WinAssist.cpp:286-300 | a scroll event produces no records, whatever its delta |
| InputRecords.MouseRoundTrip | src/WinAssist.cpp:185-284 | the records of every button event with a real button, and of every move event, decode back to the event's gesture |
| InputRecords.IntendedMouseInputs | src/WinAssist.cpp:286-295 | as intended, a scroll sends one WHEEL record carrying its delta, and every other event is translated as written |
| InputRecords.IntendedMouseRoundTrip | src/WinAssist.cpp:185-304 | with the wheel record sent, every event with a real button decodes back to its gesture, scroll included, and only the no-event sends nothing |
| InputRecords.ScrollLost | src/WinAssist.cpp:286-300 | as written, what a scroll event sends never decodes to a wheel gesture |
| Dispatch.Call | src/WinAssist.cpp:175-182 | one event makes at most one `SendInput` call, exactly when its translation has records, and that call carries exactly those records |
| Dispatch.Calls | src/WinAssist.cpp:358-360 | a loop over events makes at most one call per event, and never a call with no records |
| Dispatch.CallsAppend | src/WinAssist.cpp:358-360 | sending events one after another makes the first run's `SendInput` calls, then the second's |
| Dispatch.CallsEach | src/WinAssist.cpp:358-360 | when every event has records, event `i` makes call `i`, with exactly that event's records |
| Dispatch.CallsFrom | src/WinAssist.cpp:358-360 | every call made carries exactly the records of some event of the batch |
| Dispatch.CallsSkip | src/WinAssist.cpp:376-378 | an event that translates to no records leaves the calls of the events around it as if it were absent |
| Dispatch.KeyCallsRoundTrip | src/WinAssist.cpp:358-360 | without no-events, each key makes exactly one call, and call `i` decodes back to key `i` |
| Dispatch.ScrollLeavesNoCall | src/WinAssist.cpp:286-300 | as written, a scroll anywhere in a batch of mouse events makes no call: the calls are those of the batch without it |
| Dispatch.NoWheelAsWritten | src/WinAssist.cpp:376-378 | as written, no call made for any mouse batch carries a WHEEL record |
| Dispatch.MouseCallsRoundTrip | src/WinAssist.cpp:376-378 | as written, a batch without no-events and scrolls, and with real buttons, makes one call per event, and call `i` decodes back to event `i`'s gesture |
| Dispatch.IntendedScrollMakesOneCall | src/WinAssist.cpp:286-295 | with the wheel record sent as intended, a scroll anywhere in a batch makes exactly one call carrying its delta, between the calls of the events around it |
| Dispatch.IntendedMouseCallsRoundTrip | src/WinAssist.cpp:286-295 | with the wheel record sent as intended, a batch without no-events and with real buttons makes one call per event, and call `i` decodes back to event `i`'s gesture, scrolls included |
| Dispatch.Focus | src/WinAssist.cpp:385-420 | the window focused is a verified handle of the identity the resolver settled on, or 0; a directly verified identity gets its own handle, which is never 0; with no verified lookup and no fallback match it is 0 |
| Dispatch.SendKeys | src/WinAssist.cpp:349-365 | nothing happens exactly when the thread cannot be attached; otherwise the resolved window is focused and every key's call is made, in order |
| Dispatch.SendMouseEvents | src/WinAssist.cpp:367-383 | the same delivery contract for mouse events, with each event translated as written, so scrolls make no call |
| Dispatch.IntendedSendMouseEvents | src/WinAssist.cpp:367-383 | the same delivery contract with the corrected scroll translation |
| Dispatch.SentWhateverTheFocus | src/WinAssist.cpp:357-360 | the calls made do not depend on the desktop the resolver sees; with no verified lookup and no fallback match the focus goes to handle 0 and the calls are made anyway |
| Scheduler.Batch | src/PegasusWinterface.cpp:49-52 | the timed batch constructor stores exactly the events and delay it is given, in order; the delay defaults to 0 |
| Scheduler.Single | src/PegasusWinterface.cpp:54-57 | a batch made from one event holds exactly that event and the given delay |
| Scheduler.DefaultDelayIsZero | src/PegasusWinterface.h:47-48 | a batch built without a delay has delay 0 and is due at any reading |
| Scheduler.SendLog | src/PegasusWinterface.cpp:226-227 | dispatching a run of batches logs exactly two effects per batch, a send and a clock restart |
| Scheduler.SendLogAppend | src/PegasusWinterface.cpp:223-237 | dispatching two runs of batches logs the first run's effects, then the second's |
| Scheduler.SendLogAt | src/PegasusWinterface.cpp:226-227 | batch `i` is the `i`-th send of the log, and a clock restart follows it immediately |
| Scheduler.Drain | src/PegasusWinterface.cpp:218-238 | a drain sends a prefix of the queue in FIFO order and leaves exactly the rest queued; every sent batch was due at its own reading; it stops at the first batch not due or when readings run out; it consumes one reading per sent batch, plus one for the failed check |
| Scheduler.TickChannel | src/PegasusWinterface.cpp:218-238 | the loop as written, with its clock read per iteration and stop flag, computes exactly the drain |
| Scheduler.ReleaseAt | src/PegasusWinterface.cpp:272 | the spin ends at the first reading from its start that reaches the delay, and fails only if no later reading does |
| Scheduler.RunBlocking | src/PegasusWinterface.cpp:268-277 | batches are released in input order, each after spinning on every reading below its delay; the run returns exactly when all are released; the log is the sends of the released ones; if it has not returned, no remaining reading reaches the next delay |
| Scheduler.ReleasesIncrease | src/PegasusWinterface.cpp:270-276 | release readings lie in the trace and strictly increase: one batch goes at a time |
| Scheduler.WaitCoversDelays | src/PegasusWinterface.cpp:270-276 | since the clock restarts after each dispatch, the readings at release add up to at least the sum of the released batches' delays |
| Scheduler.Execute | src/PegasusWinterface.cpp:263-286 | unbound does nothing and does not restart the clock; otherwise the clock restarts; non-blocking replaces or appends to the queue; blocking leaves the queue alone and releases the batches in order, each after spinning on readings below its delay, returning exactly when all are released, and when it has not returned no remaining reading reaches the next delay |
| Scheduler.ExecuteCoversDelays | src/PegasusWinterface.cpp:268-277 | a blocking execute that returned sent every batch in order, and waited at least the sum of their delays |
| Scheduler.BlockingMatchesDrain | src/PegasusWinterface.cpp:209-286 | when every reading is past every delay, a blocking run returns and logs exactly what a drain of the same batches logs, and the drain sends them all |
| Winterface.NewSession | src/PegasusWinterface.cpp:135-140 | a new session is unbound, non-blocking, has both queues empty, stores an empty title, and has both corners of its geometry at (0, 0) |
| Winterface.Unbind | src/PegasusWinterface.cpp:146-148 | unbinding clears only the bound flag; identity, geometry, mode and queues stay as they were |
| Winterface.SetBlocking | src/PegasusWinterface.cpp:197-199 | one flag sets the mode for both channels and nothing else changes |
| Winterface.HasEventsInQueue | src/PegasusWinterface.cpp:205-207 | events are pending exactly when either queue is non-empty |
| Winterface.Update | src/PegasusWinterface.cpp:314-319 | when unbound nothing changes; when bound only the geometry changes, to the dimensions of the stored identity |
| Winterface.BindFirst | src/PegasusWinterface.cpp:158-195 | a bind fails, leaving the session untouched, exactly when no snapshot entry matches; otherwise the session binds to the first match, refreshes its geometry, and keeps its mode and queues |
| Winterface.BindTitle | src/PegasusWinterface.cpp:181-195 | binding by title succeeds exactly when some title contains the query, and then stores the first such window |
| Winterface.BindPid | src/PegasusWinterface.cpp:158-172 | binding by process id succeeds exactly when some window has that pid, and then stores the first such window |
| Winterface.UpToNul | src/PegasusWinterface.cpp:176 | the bytes passed through `c_str()` are the string's longest prefix without NUL |
| Winterface.Widen | src/PegasusWinterface.cpp:175-177 | streaming the narrow string into a wide stream makes one character per byte, each with the byte's value |
| Winterface.WidenInjective | src/PegasusWinterface.cpp:175-177 | two byte strings that widen to the same query are equal |
| Winterface.BindNarrow | src/PegasusWinterface.cpp:174-179 | binding by narrow string is binding by title on its bytes cut at the first NUL and widened one by one, and on all its bytes when it has no NUL |
| Winterface.NoNulUnchanged | src/PegasusWinterface.cpp:174-179 | a byte string without NUL passes through `c_str()` whole |
| Winterface.NarrowUtf8Scenario | src/PegasusWinterface.cpp:174-179 | the two UTF-8 bytes of "é" widen to two characters, so with one window titled "é" the narrow bind fails |
| Winterface.ExecuteKeys | src/PegasusWinterface.cpp:263-286 | unbound is inert; non-blocking replaces or appends to the key queue and restarts the key clock; blocking leaves the session alone and sends a prefix of the batches, all of them exactly when it returns, and stops early only when no remaining key-clock reading reaches the next delay; the mouse channel is never touched |
| Winterface.ExecuteMouse | src/PegasusWinterface.cpp:288-311 | the same for the mouse channel; the key channel is never touched |
| Winterface.Tick | src/PegasusWinterface.cpp:209-261 | unbound or blocking is inert; otherwise each channel sends exactly its ready prefix and stops at the first batch not due; nothing but the queues changes |
| Winterface.UnboundIsInert | src/PegasusWinterface.cpp:264-265 | an unbound session ignores execute, tick and update alike |
| Winterface.UnbindThenInert | src/PegasusWinterface.cpp:146-148 | after unbinding, identity and geometry stay readable, and tick and execute do nothing |
| Winterface.ModeIsShared | src/PegasusWinterface.cpp:263-311 | in blocking mode neither execute touches its queue and tick is inert; otherwise both executes queue |
| Winterface.QueuesPersist | src/PegasusWinterface.cpp:197-199 | queues survive setting the mode, unbinding and binding by title |
| Winterface.ExecuteReplacesByDefault | src/PegasusWinterface.h:105-107 | called without `appendToQueue` on a bound non-blocking session, either execute leaves exactly the new batches in its queue and the other queue as it was |
| Winterface.QueueLengths | src/PegasusWinterface.cpp:279-284 | replacing leaves exactly the new batches; appending keeps every pending batch in front of them |
| Winterface.BlockingRunCoversDelays | src/PegasusWinterface.cpp:268-277 | a blocking key execute that returned logged a restart followed by every batch in order, and waited at least the sum of their delays |
| Winterface.TickChannelsIndependent | src/PegasusWinterface.cpp:209-261 | the key channel's tick outcome depends only on the key queue and key clock, and likewise for the mouse channel |
| Winterface.QueuedThenTicked | src/PegasusWinterface.cpp:209-286 | batches queued non-blocking and then ticked with every reading past every delay are all sent in order, and the queue is left empty |
| Winterface.TwoBatchScenario | src/PegasusWinterface.cpp:218-238 | two 250 ms batches: a tick at 100 ms sends nothing; a tick reading 260 then 3 sends only the first; a later tick at 251 sends the second and empties the queue |
| Winterface.NotepadScenario | src/PegasusWinterface.cpp:181-195 | with one window titled "Untitled - Notepad", binding to "Notepad" succeeds and stores that title |

## Left out

- Win32 calls are not modelled as code. `FindWindow`, `GetWindowThreadProcessId`, `IsWindow`, `GetWindowRect`, `EnumWindows`, `GetWindowTextW`, `IsWindowVisible` and `MapVirtualKey` are oracles in `Desktop` or parameters. The oracles do not model an uninitialised `pid` when no window is found.
- `SetActiveWindow`, `SendInput` and `AttachThreadInput` are not modelled either. Focus and the record lists are returned rather than performed. Whether attaching succeeds is a parameter.
- The detach retry loop in `sendKeys`/`sendMouseEvents` is left out. It repeats until detaching succeeds and may never end. It also detaches using the possibly updated local copy of the window.
- The library's clock wrapper and its floating-point conversion to milliseconds are not modelled. A clock is a trace of whole-millisecond readings, so a reading trace that stops mid-spin stands for a call that has not returned yet.
- Busy-wait CPU use and real elapsed time are not modelled; only the readings are.
- Console logging is left out everywhere.
- The default `KeyEvent()` constructor is left out. It leaves every field uninitialised.
- The commented-out message-posting senders are left out as deprecated code.
- The demonstration program is left out.
- `getWinInfo`, `getWindowDimensions`, `isBound` and `isBlocking` are left out as functions. They are the `info`, `dims`, `bound` and `blocking` fields of `Session`.
- Winterface.BindNarrow: the stream is taken to widen in the default "C" locale, where byte `b` becomes character `b`. Widening under any other locale is not modelled.
- Windows.DimensionsOf: width and height are exact integers. The source's LONG subtraction could overflow for rectangles whose edges differ by 2^31 or more, and this is not modelled.
- Windows.CapturedTitle: the text is taken as free of NUL. A title with an embedded NUL would be cut there when copied into a `std::wstring`, and this is not modelled.
- Windows.CapturedTitle: titles are sequences of Unicode scalar values, so the 1023 limit counts characters. `GetWindowTextW` counts UTF-16 code units, so a title with characters outside the Basic Multilingual Plane is cut later here than in the source, and a cut that splits a surrogate pair is not modelled. Titles holding unpaired surrogates cannot be represented at all.
- Winterface.NewSession: the identity's pid, tid and visibility and the geometry's width and height are not fixed. The constructor leaves these scalar members uninitialised, so they are a parameter. The corners are value-initialised tuples and are fixed at (0, 0).

## Findings

| source | as written | input that shows it | evidently intended | confidence | as-written member | corrected member |
|---|---|---|---|---|---|---|
| src/WinAssist.cpp:286-295 | the scroll branch builds a WHEEL record carrying the delta but never appends it to the input queue, so the empty-queue check returns without calling `SendInput` | any `MEVT_SCROLL` event, e.g. delta 120 | one WHEEL record carrying the scroll delta is sent | not executed | InputRecords.ScrollLost | InputRecords.IntendedMouseRoundTrip |

=== FILE: dispatch.dfy ===
/**
 Delivery of one batch to a window: attach to the window's input thread,
 focus the handle the resolver finds (updating allowed), then make one
 `SendInput` call per event that produces records.
 */
module Dispatch {

  import opened Wrappers
  import opened WinTypes
  import opened Windows
  import opened InputRecords

  /**
   The outcome of one delivery: nothing when attaching to the window's
   thread failed; otherwise the handle given focus (0 when resolution
   failed) and the records of each `SendInput` call, in order.
   */
  datatype Delivery = NotAttached | Delivered(focus: nat, calls: seq<seq<Input>>)

  // ---------------------------------------------------------------------------
  // One `SendInput` call per event

  /** The call one event makes under `translate`: none when it yields no records. */
  function Call<E>(e: E, translate: E -> seq<Input>): (c: seq<seq<Input>>)
    ensures |c| <= 1
    ensures |c| == 1 <==> |translate(e)| > 0
    ensures |c| == 1 ==> c[0] == translate(e)
  {
    var r := translate(e);
    if |r| == 0 then [] else [r]
  }

  /** The calls a sending loop makes for each event in turn, skipping events that yield no records. */
  function Calls<E>(events: seq<E>, translate: E -> seq<Input>): (calls: seq<seq<Input>>)
    ensures |calls| <= |events|
    ensures forall i :: 0 <= i < |calls| ==> |calls[i]| > 0
    decreases |events|
  {
    if |events| == 0 then [] else Call(events[0], translate) + Calls(events[1..], translate)
  }

  /** Sending two runs of events makes the first run's calls, then the second's. */
  lemma {:induction false} CallsAppend<E>(a: seq<E>, b: seq<E>, translate: E -> seq<Input>)
    ensures Calls(a + b, translate) == Calls(a, translate) + Calls(b, translate)
  {
    if |a| == 0 {
      assert a + b == b;
    } else {
      assert (a + b)[1..] == a[1..] + b;
      CallsAppend(a[1..], b, translate);
      assert (a + b)[0] == a[0];
    }
  }

  /** When every event yields records, event `i` makes call `i`, and that call is its records. */
  lemma {:induction false} CallsEach<E>(events: seq<E>, translate: E -> seq<Input>)
    requires forall i :: 0 <= i < |events| ==> |translate(events[i])| > 0
    ensures |Calls(events, translate)| == |events|
    ensures forall i :: 0 <= i < |events| ==> Calls(events, translate)[i] == translate(events[i])
    decreases |events|
  {
    if |events| > 0 {
      CallsEach(events[1..], translate);
      var rest := Calls(events[1..], translate);
      assert Calls(events, translate) == [translate(events[0])] + rest;
      forall i | 1 <= i < |events|
        ensures Calls(events, translate)[i] == translate(events[i])
      {
        assert events[i] == events[1..][i - 1];
      }
    }
  }

  /** `c` is the records some event of `events` yields. */
  predicate FromSome<E>(events: seq<E>, translate: E -> seq<Input>, c: seq<Input>)
  {
    exists j :: 0 <= j < |events| && c == translate(events[j])
  }

  /** Every call is the records of some event of the batch. */
  lemma {:induction false} CallsFrom<E>(events: seq<E>, translate: E -> seq<Input>)
    ensures forall i :: 0 <= i < |Calls(events, translate)| ==> FromSome(events, translate, Calls(events, translate)[i])
    decreases |events|
  {
    if |events| > 0 {
      CallsFrom(events[1..], translate);
      var head := Call(events[0], translate);
      var rest := Calls(events[1..], translate);
      assert Calls(events, translate) == head + rest;
      forall i | 0 <= i < |Calls(events, translate)|
        ensures FromSome(events, translate, Calls(events, translate)[i])
      {
        if i < |head| {
          assert Calls(events, translate)[i] == translate(events[0]);
        } else {
          assert FromSome(events[1..], translate, rest[i - |head|]);
          var j :| 0 <= j < |events[1..]| && rest[i - |head|] == translate(events[1..][j]);
          assert events[1..][j] == events[j + 1];
          assert Calls(events, translate)[i] == translate(events[j + 1]);
        }
      }
    }
  }

  /** An event that yields no records leaves the calls of its neighbours exactly as without it. */
  lemma CallsSkip<E>(a: seq<E>, e: E, b: seq<E>, translate: E -> seq<Input>)
    requires translate(e) == []
    ensures Calls(a + [e] + b, translate) == Calls(a + b, translate)
  {
    assert [e][1..] == [];
    assert Calls([e], translate) == [];
    CallsAppend(a, [e], translate);
    CallsAppend(a + [e], b, translate);
    CallsAppend(a, b, translate);
  }

  // ---------------------------------------------------------------------------
  // Keys

  /** `sendKey` for one event; `scan` stands for `MapVirtualKey`. */
  function KeyTranslation(scan: Word -> Word): KeyEvent -> seq<Input>
  {
    (e: KeyEvent) => KeyInputs(e, scan(e.vKey))
  }

  /**
   Without `KEVT_NONE` events, each key makes exactly one call, and that
   call's records read back as the key itself.
   */
  lemma KeyCallsRoundTrip(keys: seq<KeyEvent>, scan: Word -> Word)
    requires forall i :: 0 <= i < |keys| ==> keys[i].kind != KeyNone
    ensures |Calls(keys, KeyTranslation(scan))| == |keys|
    ensures forall i :: 0 <= i < |keys| ==> DecodeKey(Calls(keys, KeyTranslation(scan))[i]) == Some(keys[i])
  {
    forall i | 0 <= i < |keys|
      ensures |KeyTranslation(scan)(keys[i])| > 0
      ensures DecodeKey(KeyTranslation(scan)(keys[i])) == Some(keys[i])
    {
      KeyRoundTrip(keys[i], scan(keys[i].vKey));
    }
    CallsEach(keys, KeyTranslation(scan));
  }

  // ---------------------------------------------------------------------------
  // Mouse, as written and as intended

  /** As written, a scroll anywhere in a batch makes no call: the batch sends as if it were absent. */
  lemma ScrollLeavesNoCall(a: seq<MouseEvent>, e: MouseEvent, b: seq<MouseEvent>)
    requires e.kind == Scroll
    ensures Calls(a + [e] + b, MouseInputs) == Calls(a + b, MouseInputs)
  {
    ScrollIsDropped(e);
    CallsSkip(a, e, b, MouseInputs);
  }

  /** As written, no `SendInput` call of a mouse batch carries a WHEEL record, whatever the batch holds. */
  lemma NoWheelAsWritten(events: seq<MouseEvent>)
    ensures forall i, k :: 0 <= i < |Calls(events, MouseInputs)| && 0 <= k < |Calls(events, MouseInputs)[i]| ==>
      WheelFlag !in Calls(events, MouseInputs)[i][k].flags
  {
    CallsFrom(events, MouseInputs);
    forall i, k | 0 <= i < |Calls(events, MouseInputs)| && 0 <= k < |Calls(events, MouseInputs)[i]|
      ensures WheelFlag !in Calls(events, MouseInputs)[i][k].flags
    {
      assert FromSome(events, MouseInputs, Calls(events, MouseInputs)[i]);
    }
  }

  /**
   As written, without `MEVT_NONE` or scroll events, and with a real button
   on button events, each event makes one call that reads back as its gesture.
   */
  lemma MouseCallsRoundTrip(events: seq<MouseEvent>)
    requires forall i :: 0 <= i < |events| ==> events[i].kind != MouseNone && events[i].kind != Scroll
    requires forall i :: 0 <= i < |events| ==> IsButtonKind(events[i].kind) ==> events[i].key != NoButton
    ensures |Calls(events, MouseInputs)| == |events|
    ensures forall i :: 0 <= i < |events| ==> DecodeMouse(Calls(events, MouseInputs)[i]) == GestureOf(events[i])
  {
    forall i | 0 <= i < |events|
      ensures |MouseInputs(events[i])| > 0
      ensures DecodeMouse(MouseInputs(events[i])) == GestureOf(events[i])
    {
      MouseRoundTrip(events[i]);
    }
    CallsEach(events, MouseInputs);
  }

  /** As intended, a scroll anywhere in a batch makes one call, a WHEEL record carrying its delta. */
  lemma IntendedScrollMakesOneCall(a: seq<MouseEvent>, e: MouseEvent, b: seq<MouseEvent>)
    requires e.kind == Scroll
    ensures Calls(a + [e] + b, IntendedMouseInputs) ==
      Calls(a, IntendedMouseInputs) + [[MouseInput(0, 0, e.scrollDelta, {WheelFlag})]] + Calls(b, IntendedMouseInputs)
  {
    assert [e][1..] == [];
    assert Calls([e], IntendedMouseInputs) == [[MouseInput(0, 0, e.scrollDelta, {WheelFlag})]];
    CallsAppend(a, [e], IntendedMouseInputs);
    CallsAppend(a + [e], b, IntendedMouseInputs);
  }

  /**
   As intended, without `MEVT_NONE` events and with a real button on button
   events, each event makes one call that reads back as its gesture, scrolls included.
   */
  lemma IntendedMouseCallsRoundTrip(events: seq<MouseEvent>)
    requires forall i :: 0 <= i < |events| ==> events[i].kind != MouseNone
    requires forall i :: 0 <= i < |events| ==> IsButtonKind(events[i].kind) ==> events[i].key != NoButton
    ensures |Calls(events, IntendedMouseInputs)| == |events|
    ensures forall i :: 0 <= i < |events| ==> DecodeMouse(Calls(events, IntendedMouseInputs)[i]) == GestureOf(events[i])
  {
    forall i | 0 <= i < |events|
      ensures |IntendedMouseInputs(events[i])| > 0
      ensures DecodeMouse(IntendedMouseInputs(events[i])) == GestureOf(events[i])
    {
      IntendedMouseRoundTrip(events[i]);
    }
    CallsEach(events, IntendedMouseInputs);
  }

  // ---------------------------------------------------------------------------
  // Delivery

  /**
   The handle `SetActiveWindow` receives: what the resolver finds with
   updating allowed, on a copy of the identity.
   */
  function Focus(window: WinInfo, d: Desktop): (h: nat)
    ensures h != 0 ==>
      var found := GetWindowHandle(window, true, d.find, Snapshot(d)).window;
      Verified(found, d.find(found.title)) && h == d.find(found.title).handle
    ensures Verified(window, d.find(window.title)) ==> h == d.find(window.title).handle && h != 0
    ensures !Verified(window, d.find(window.title)) && (forall j :: 0 <= j < |Snapshot(d)| ==> !FallbackMatches(window, Snapshot(d)[j])) ==> h == 0
  {
    if Verified(window, d.find(window.title)) then
      GetWindowHandle(window, true, d.find, Snapshot(d)).handle
    else
      FallbackOutcome(window, d.find, Snapshot(d));
      GetWindowHandle(window, true, d.find, Snapshot(d)).handle
  }

  /**
   `SendKeys(window, keys)`: give up when the thread cannot be attached;
   otherwise focus what the resolver finds and send every key. The window
   is passed by value, so an identity the resolver updates is dropped.
   */
  function SendKeys(window: WinInfo, keys: seq<KeyEvent>, attached: bool, d: Desktop, scan: Word -> Word): (r: Delivery)
    ensures r.NotAttached? <==> !attached
    ensures r.Delivered? ==> r.focus == Focus(window, d) && r.calls == Calls(keys, KeyTranslation(scan))
  {
    if !attached then NotAttached else Delivered(Focus(window, d), Calls(keys, KeyTranslation(scan)))
  }

  /** `SendMouseEvents(window, events)` as written: the same delivery, scrolls sending nothing. */
  function SendMouseEvents(window: WinInfo, events: seq<MouseEvent>, attached: bool, d: Desktop): (r: Delivery)
    ensures r.NotAttached? <==> !attached
    ensures r.Delivered? ==> r.focus == Focus(window, d) && r.calls == Calls(events, MouseInputs)
  {
    if !attached then NotAttached else Delivered(Focus(window, d), Calls(events, MouseInputs))
  }

  /** `SendMouseEvents(window, events)` as evidently intended: a scroll sends its WHEEL record. */
  function IntendedSendMouseEvents(window: WinInfo, events: seq<MouseEvent>, attached: bool, d: Desktop): (r: Delivery)
    ensures r.NotAttached? <==> !attached
    ensures r.Delivered? ==> r.focus == Focus(window, d) && r.calls == Calls(events, IntendedMouseInputs)
  {
    if !attached then NotAttached else Delivered(Focus(window, d), Calls(events, IntendedMouseInputs))
  }

  /**
   What is sent does not depend on whether the window was found: a failed
   resolution focuses handle 0 and the same calls are made all the same.
   */
  lemma SentWhateverTheFocus(window: WinInfo, keys: seq<KeyEvent>, d1: Desktop, d2: Desktop, scan: Word -> Word)
    ensures SendKeys(window, keys, true, d1, scan).calls == SendKeys(window, keys, true, d2, scan).calls
    ensures !Verified(window, d1.find(window.title)) && (forall j :: 0 <= j < |Snapshot(d1)| ==> !FallbackMatches(window, Snapshot(d1)[j])) ==>
      SendKeys(window, keys, true, d1, scan).focus == 0
  {
  }
}

=== FILE: input_records.dfy ===
/**
 Translation of one key or mouse event into the INPUT records handed to a
 single `SendInput` call. An empty sequence means no `SendInput` call is made.
 */
module InputRecords {

  import opened Wrappers
  import opened WinTypes

  /** The KEYEVENTF_* and MOUSEEVENTF_* bits the translator sets. */
  datatype Flag =
    | ScanCodeFlag | ExtendedKeyFlag | KeyUpFlag
    | LeftDownFlag | LeftUpFlag | RightDownFlag | RightUpFlag | MiddleDownFlag | MiddleUpFlag
    | MoveFlag | AbsoluteFlag | VirtualDeskFlag | WheelFlag

  /** One INPUT record; fields the source leaves zeroed are zero here. */
  datatype Input =
    | KeyboardInput(vKey: Word, scan: Word, flags: set<Flag>)
    | MouseInput(dx: Long, dy: Long, data: Dword, flags: set<Flag>)

  // ---------------------------------------------------------------------------
  // Keys

  /** Flags of the press record: SCANCODE and EXTENDEDKEY as the event asks. */
  function DownFlags(e: KeyEvent): (f: set<Flag>)
    ensures ScanCodeFlag in f <==> e.scanCode
    ensures ExtendedKeyFlag in f <==> e.isExtended
    ensures f <= {ScanCodeFlag, ExtendedKeyFlag}
  {
    (if e.scanCode then {ScanCodeFlag} else {}) + (if e.isExtended then {ExtendedKeyFlag} else {})
  }

  predicate IsPress(r: Input)
  {
    r.KeyboardInput? && KeyUpFlag !in r.flags
  }

  predicate IsRelease(r: Input)
  {
    r.KeyboardInput? && KeyUpFlag in r.flags
  }

  /**
   `sendKey`: a press record for typed and pressed keys, then a release record
   for typed and released keys. `scan` is what `MapVirtualKey` returned for
   the key. The count check guards a branch no event reaches.
   */
  function KeyInputs(e: KeyEvent, scan: Word): (r: seq<Input>)
    ensures e.kind == KeyNone <==> |r| == 0
    ensures e.kind != KeyNone ==> 1 <= |r| <= 2
    ensures forall i :: 0 <= i < |r| ==> r[i].KeyboardInput? && r[i].vKey == e.vKey && r[i].scan == scan
    ensures forall i :: 0 <= i < |r| ==> r[i].flags - {KeyUpFlag} == DownFlags(e)
  {
    if e.kind == KeyNone then []
    else
      var flags := DownFlags(e);
      var down := if e.kind == Typed || e.kind == Pressed then [KeyboardInput(e.vKey, scan, flags)] else [];
      var up := if e.kind == Typed || e.kind == Released then [KeyboardInput(e.vKey, scan, flags + {KeyUpFlag})] else [];
      var input := down + up;
      assert e.kind.Typed? || e.kind.Pressed? || e.kind.Released?;
      assert 1 <= |input| <= 2;
      if |input| == 0 || |input| > 2 then [] else input
  }

  /** Typed is press then release, Pressed is a press alone, Released a release alone. */
  lemma KeyRecordsByType(e: KeyEvent, scan: Word)
    ensures e.kind == Typed ==> |KeyInputs(e, scan)| == 2 && IsPress(KeyInputs(e, scan)[0]) && IsRelease(KeyInputs(e, scan)[1])
    ensures e.kind == Pressed ==> |KeyInputs(e, scan)| == 1 && IsPress(KeyInputs(e, scan)[0])
    ensures e.kind == Released ==> |KeyInputs(e, scan)| == 1 && IsRelease(KeyInputs(e, scan)[0])
    ensures e.kind == Typed ==> KeyInputs(e, scan)[1].flags == KeyInputs(e, scan)[0].flags + {KeyUpFlag}
  {
  }

  /** Reads the key event back from the records `KeyInputs` produces. */
  function DecodeKey(r: seq<Input>): Option<KeyEvent>
  {
    if |r| == 1 && r[0].KeyboardInput? then
      var f := r[0].flags;
      Some(KeyEvent(r[0].vKey, if KeyUpFlag in f then Released else Pressed, ScanCodeFlag in f, ExtendedKeyFlag in f))
    else if |r| == 2 && IsPress(r[0]) && IsRelease(r[1]) then
      var f := r[0].flags;
      Some(KeyEvent(r[0].vKey, Typed, ScanCodeFlag in f, ExtendedKeyFlag in f))
    else
      None
  }

  /** No information about a real key event is lost in translation. */
  lemma KeyRoundTrip(e: KeyEvent, scan: Word)
    requires e.kind != KeyNone
    ensures DecodeKey(KeyInputs(e, scan)) == Some(e)
  {
    var r := KeyInputs(e, scan);
    assert r[0].flags - {KeyUpFlag} == DownFlags(e);
    assert ScanCodeFlag in r[0].flags <==> e.scanCode;
    assert ExtendedKeyFlag in r[0].flags <==> e.isExtended;
  }

  /** Two real key events that produce the same records are the same event. */
  lemma KeyInputsInjective(e1: KeyEvent, e2: KeyEvent, scan: Word)
    requires e1.kind != KeyNone && e2.kind != KeyNone
    requires KeyInputs(e1, scan) == KeyInputs(e2, scan)
    ensures e1 == e2
  {
    KeyRoundTrip(e1, scan);
    KeyRoundTrip(e2, scan);
  }

  // ---------------------------------------------------------------------------
  // Mouse

  /** The button flag of a DOWN (`down`) or UP record; no flag for `NoButton`. */
  function ButtonFlags(key: MouseKey, down: bool): set<Flag>
  {
    match key
    case NoButton => {}
    case LeftButton => if down then {LeftDownFlag} else {LeftUpFlag}
    case RightButton => if down then {RightDownFlag} else {RightUpFlag}
    case MiddleButton => if down then {MiddleDownFlag} else {MiddleUpFlag}
  }

  /** ABSOLUTE, plus VIRTUALDESK for a move across the whole virtual desktop. */
  function AbsoluteFlags(desktop: bool): (f: set<Flag>)
    ensures AbsoluteFlag in f
    ensures VirtualDeskFlag in f <==> desktop
    ensures f <= {AbsoluteFlag, VirtualDeskFlag}
  {
    {AbsoluteFlag} + (if desktop then {VirtualDeskFlag} else {})
  }

  predicate IsButtonKind(k: MouseType)
  {
    k == ButtonPressed || k == ButtonDown || k == ButtonUp
  }

  predicate IsMoveKind(k: MouseType)
  {
    k == Move || k == MoveAbs || k == MoveDesktop
  }

  /**
   `sendMouse` as written: button down, button up, relative move and absolute
   move records in that order. The wheel record of a scroll event is built
   but never queued, so a scroll sends nothing.
   */
  function MouseInputs(e: MouseEvent): (r: seq<Input>)
    ensures |r| == (if e.kind == ButtonPressed then 2 else if IsButtonKind(e.kind) || IsMoveKind(e.kind) then 1 else 0)
    ensures forall i :: 0 <= i < |r| ==> r[i].MouseInput? && r[i].data == 0 && WheelFlag !in r[i].flags
  {
    if e.kind == MouseNone then []
    else
      var downs := if e.kind == ButtonPressed || e.kind == ButtonDown then [MouseInput(0, 0, 0, ButtonFlags(e.key, true))] else [];
      var ups := if e.kind == ButtonPressed || e.kind == ButtonUp then [MouseInput(0, 0, 0, ButtonFlags(e.key, false))] else [];
      var moves := if e.kind == Move then [MouseInput(e.dx, e.dy, 0, {MoveFlag})] else [];
      var absolute :=
        if e.kind == MoveAbs || e.kind == MoveDesktop then
          [MouseInput(e.dx, e.dy, 0, AbsoluteFlags(e.kind == MoveDesktop))]
        else [];
      downs + ups + moves + absolute
  }

  /** Records per mouse event kind, with the button mapped to its own flag. */
  lemma MouseRecordsByType(e: MouseEvent)
    ensures e.kind == MouseNone || e.kind == Scroll <==> MouseInputs(e) == []
    ensures e.kind == ButtonPressed ==> MouseInputs(e) == [MouseInput(0, 0, 0, ButtonFlags(e.key, true)), MouseInput(0, 0, 0, ButtonFlags(e.key, false))]
    ensures e.kind == ButtonDown ==> MouseInputs(e) == [MouseInput(0, 0, 0, ButtonFlags(e.key, true))]
    ensures e.kind == ButtonUp ==> MouseInputs(e) == [MouseInput(0, 0, 0, ButtonFlags(e.key, false))]
    ensures e.kind == Move ==> MouseInputs(e) == [MouseInput(e.dx, e.dy, 0, {MoveFlag})]
    ensures e.kind == MoveAbs ==> MouseInputs(e) == [MouseInput(e.dx, e.dy, 0, {AbsoluteFlag})]
    ensures e.kind == MoveDesktop ==> MouseInputs(e) == [MouseInput(e.dx, e.dy, 0, {AbsoluteFlag, VirtualDeskFlag})]
  {
    assert AbsoluteFlags(false) == {AbsoluteFlag};
    assert AbsoluteFlags(true) == {AbsoluteFlag, VirtualDeskFlag};
  }

  /** A scroll event, whatever its delta, produces no `SendInput` call. */
  lemma ScrollIsDropped(e: MouseEvent)
    requires e.kind == Scroll
    ensures MouseInputs(e) == []
  {
  }

  /** What a mouse event asks the cursor or a button to do, as recovered from records. */
  datatype Gesture =
    | NoGesture
    | Click(key: MouseKey)
    | Press(key: MouseKey)
    | Release(key: MouseKey)
    | MoveBy(dx: Long, dy: Long)
    | MoveTo(dx: Long, dy: Long, desktop: bool)
    | Wheel(delta: Dword)
    | Unknown

  /** The gesture an event stands for. */
  function GestureOf(e: MouseEvent): Gesture
  {
    match e.kind
    case MouseNone => NoGesture
    case Scroll => Wheel(e.scrollDelta)
    case ButtonPressed => Click(e.key)
    case ButtonDown => Press(e.key)
    case ButtonUp => Release(e.key)
    case Move => MoveBy(e.dx, e.dy)
    case MoveAbs => MoveTo(e.dx, e.dy, false)
    case MoveDesktop => MoveTo(e.dx, e.dy, true)
  }

  /** The button and direction a single button flag set names. */
  function ButtonOf(f: set<Flag>): Option<(MouseKey, bool)>
  {
    if f == {LeftDownFlag} then Some((LeftButton, true))
    else if f == {LeftUpFlag} then Some((LeftButton, false))
    else if f == {RightDownFlag} then Some((RightButton, true))
    else if f == {RightUpFlag} then Some((RightButton, false))
    else if f == {MiddleDownFlag} then Some((MiddleButton, true))
    else if f == {MiddleUpFlag} then Some((MiddleButton, false))
    else None
  }

  /** Reads the gesture back from the records of one `SendInput` call. */
  function DecodeMouse(r: seq<Input>): Gesture
  {
    if |r| == 0 then NoGesture
    else if !r[0].MouseInput? then Unknown
    else if |r| == 1 then
      var f := r[0].flags;
      if f == {WheelFlag} then Wheel(r[0].data)
      else if f == {MoveFlag} then MoveBy(r[0].dx, r[0].dy)
      else if f == {AbsoluteFlag} then MoveTo(r[0].dx, r[0].dy, false)
      else if f == {AbsoluteFlag, VirtualDeskFlag} then MoveTo(r[0].dx, r[0].dy, true)
      else match ButtonOf(f)
        case Some((key, true)) => Press(key)
        case Some((key, false)) => Release(key)
        case None => Unknown
    else if |r| == 2 && r[1].MouseInput? then
      match (ButtonOf(r[0].flags), ButtonOf(r[1].flags))
      case (Some((k0, true)), Some((k1, false))) => if k0 == k1 then Click(k0) else Unknown
      case _ => Unknown
    else Unknown
  }

  /**
   Button and move events with a real button survive translation; a scroll
   does not: its records decode to no gesture at all.
   */
  lemma MouseRoundTrip(e: MouseEvent)
    requires e.kind != Scroll
    requires IsButtonKind(e.kind) ==> e.key != NoButton
    ensures DecodeMouse(MouseInputs(e)) == GestureOf(e)
  {
    MouseRecordsByType(e);
  }

  /**
   `sendMouse` as evidently intended: a scroll event sends one WHEEL record
   carrying its delta; every other event is translated as written.
   */
  function IntendedMouseInputs(e: MouseEvent): (r: seq<Input>)
    ensures e.kind == Scroll ==> r == [MouseInput(0, 0, e.scrollDelta, {WheelFlag})]
    ensures e.kind != Scroll ==> r == MouseInputs(e)
  {
    if e.kind == Scroll then [MouseInput(0, 0, e.scrollDelta, {WheelFlag})] else MouseInputs(e)
  }

  /** With the wheel record queued, every event but `MouseNone` with a real button round-trips. */
  lemma IntendedMouseRoundTrip(e: MouseEvent)
    requires IsButtonKind(e.kind) ==> e.key != NoButton
    ensures DecodeMouse(IntendedMouseInputs(e)) == GestureOf(e)
    ensures e.kind != MouseNone ==> |IntendedMouseInputs(e)| > 0
  {
    if e.kind != Scroll {
      MouseRoundTrip(e);
    }
  }

  /** As written, every scroll is lost, whatever its delta: what is sent decodes to another gesture. */
  lemma ScrollLost(e: MouseEvent)
    requires e.kind == Scroll
    ensures DecodeMouse(MouseInputs(e)) != GestureOf(e)
  {
  }
}

=== FILE: scheduler.dfy ===
/**
 One scheduling channel: a FIFO queue of timed batches and a restartable
 clock. The clock is a trace of elapsed-millisecond readings, one consumed
 each time the code reads the clock; dispatches and clock restarts are
 appended to an effect log. Keys and mouse each get their own channel.
 */
module Scheduler {

  import opened Wrappers
  import opened WinTypes

  /** `TimedKeyEvent` / `TimedMouseEvent`: events sent together after a delay in milliseconds. */
  datatype Timed<E> = Timed(events: seq<E>, delayBefore: Int32)

  /** The constructor taking a vector of events. */
  function Batch<E>(events: seq<E>, delayBefore: Int32 := 0): (t: Timed<E>)
    ensures t.events == events && t.delayBefore == delayBefore
  {
    Timed(events, delayBefore)
  }

  /** The constructor taking one event: a batch of exactly that event. */
  function Single<E>(e: E, delayBefore: Int32 := 0): (t: Timed<E>)
    ensures |t.events| == 1 && t.events[0] == e && t.delayBefore == delayBefore
  {
    Timed([e], delayBefore)
  }

  /** Without an explicit delay a batch is due as soon as the clock is read. */
  lemma DefaultDelayIsZero<E>(events: seq<E>, e: E, reading: nat)
    ensures Batch(events).delayBefore == 0 && Single(e).delayBefore == 0
    ensures Due(Batch(events), reading) && Due(Single(e), reading)
  {
  }

  /** A batch is due once the elapsed time read from its channel clock reaches its delay. */
  predicate Due<E>(b: Timed<E>, reading: nat)
  {
    reading >= b.delayBefore
  }

  /** An observable effect on a channel: its clock restarts, or a batch goes to a window. */
  datatype Effect<E> = Restart | Send(target: WinInfo, events: seq<E>)

  /** The effects of dispatching `batches` in order, each followed by a clock restart. */
  function SendLog<E>(target: WinInfo, batches: seq<Timed<E>>): (log: seq<Effect<E>>)
    ensures |log| == 2 * |batches|
  {
    if |batches| == 0 then [] else [Send(target, batches[0].events), Restart] + SendLog(target, batches[1..])
  }

  /** Dispatching two runs of batches logs the first run's effects, then the second's. */
  lemma {:induction false} SendLogAppend<E>(target: WinInfo, a: seq<Timed<E>>, b: seq<Timed<E>>)
    ensures SendLog(target, a + b) == SendLog(target, a) + SendLog(target, b)
  {
    if |a| == 0 {
      assert a + b == b;
    } else {
      assert (a + b)[1..] == a[1..] + b;
      SendLogAppend(target, a[1..], b);
    }
  }

  /** Batch `i` is the `i`-th send of the log, and a restart follows each send. */
  lemma {:induction false} SendLogAt<E>(target: WinInfo, batches: seq<Timed<E>>, i: nat)
    requires i < |batches|
    ensures SendLog(target, batches)[2 * i] == Send(target, batches[i].events)
    ensures SendLog(target, batches)[2 * i + 1] == Restart
  {
    if i > 0 {
      SendLogAt(target, batches[1..], i - 1);
    }
  }

  // ---------------------------------------------------------------------------
  // Non-blocking drain (`tick`, one channel)

  /**
   A channel after a drain: how many batches were sent, what is left queued,
   what was logged, and the readings not yet consumed.
   */
  datatype Drained<E> = Drained(sent: nat, queue: seq<Timed<E>>, log: seq<Effect<E>>, readings: seq<nat>)

  /** How many clock readings a drain that sent `sent` of `queued` batches consumed. */
  function ReadingsUsed(sent: nat, queued: nat, available: nat): nat
  {
    if sent < queued && sent < available then sent + 1 else sent
  }

  /**
   The `tick` loop for one channel: while the queue is non-empty, read the
   clock; if the front batch is due, send it, restart the clock and pop it;
   otherwise stop. A trace that runs out stops the drain too.
   */
  function Drain<E>(queue: seq<Timed<E>>, readings: seq<nat>, target: WinInfo): (r: Drained<E>)
    ensures r.sent <= |queue| && r.queue == queue[r.sent..]
    ensures r.log == SendLog(target, queue[..r.sent])
    ensures forall i :: 0 <= i < r.sent ==> i < |readings| && Due(queue[i], readings[i])
    ensures r.sent < |queue| ==> r.sent >= |readings| || !Due(queue[r.sent], readings[r.sent])
    ensures ReadingsUsed(r.sent, |queue|, |readings|) <= |readings|
    ensures r.readings == readings[ReadingsUsed(r.sent, |queue|, |readings|)..]
    decreases |queue|
  {
    if |queue| == 0 || |readings| == 0 then
      Drained(0, queue, [], readings)
    else if Due(queue[0], readings[0]) then
      var rest := Drain(queue[1..], readings[1..], target);
      DrainStep(queue, readings, rest.sent);
      Drained(rest.sent + 1, rest.queue, [Send(target, queue[0].events), Restart] + rest.log, rest.readings)
    else
      Drained(0, queue, [], readings[1..])
  }

  /** Index bookkeeping for one step of `Drain`: the tail's positions are one less. */
  lemma DrainStep<E>(queue: seq<Timed<E>>, readings: seq<nat>, k: nat)
    requires 0 < |queue| && 0 < |readings| && k <= |queue| - 1 && k <= |readings| - 1
    ensures queue[1..][k..] == queue[k + 1..]
    ensures queue[..k + 1][1..] == queue[1..][..k]
    ensures forall i :: 1 <= i < |queue| ==> queue[i] == queue[1..][i - 1]
    ensures forall i :: 1 <= i < |readings| ==> readings[i] == readings[1..][i - 1]
    ensures readings[1..][ReadingsUsed(k, |queue| - 1, |readings| - 1)..] == readings[ReadingsUsed(k + 1, |queue|, |readings|)..]
  {
  }

  /** A drain that continues after `sent` batches were already sent with effects `log`. */
  function After<E>(sent: nat, log: seq<Effect<E>>, d: Drained<E>): Drained<E>
  {
    Drained(sent + d.sent, d.queue, log + d.log, d.readings)
  }

  /** One iteration of the drain loop: a due front batch is sent, the rest drained after it. */
  lemma DrainUnfold<E>(sent: nat, log: seq<Effect<E>>, q: seq<Timed<E>>, rest: seq<nat>, target: WinInfo)
    requires |q| > 0 && |rest| > 0
    ensures Due(q[0], rest[0]) ==>
      After(sent, log, Drain(q, rest, target)) == After(sent + 1, log + [Send(target, q[0].events), Restart], Drain(q[1..], rest[1..], target))
    ensures !Due(q[0], rest[0]) ==> After(sent, log, Drain(q, rest, target)) == Drained(sent, q, log, rest[1..])
  {
    if Due(q[0], rest[0]) {
      var d' := Drain(q[1..], rest[1..], target);
      var step := [Send(target, q[0].events), Restart];
      assert log + (step + d'.log) == (log + step) + d'.log;
    } else {
      assert log + [] == log;
    }
  }

  /**
   The same loop written as the source writes it, with an explicit clock read
   per iteration; it computes exactly what `Drain` describes.
   */
  method TickChannel<E>(queue: seq<Timed<E>>, readings: seq<nat>, target: WinInfo) returns (sent: nat, q: seq<Timed<E>>, log: seq<Effect<E>>, rest: seq<nat>)
    ensures Drained(sent, q, log, rest) == Drain(queue, readings, target)
  {
    sent, q, log, rest := 0, queue, [], readings;
    assert [] + Drain(q, rest, target).log == Drain(q, rest, target).log;
    var stop := false;
    while !stop
      invariant stop ==> Drain(queue, readings, target) == Drained(sent, q, log, rest)
      invariant !stop ==> Drain(queue, readings, target) == After(sent, log, Drain(q, rest, target))
      decreases |rest|, if stop then 0 else 1
    {
      if |q| == 0 || |rest| == 0 {
        assert log + [] == log;
        stop := true;
      } else {
        DrainUnfold(sent, log, q, rest, target);
        var reading := rest[0];
        if reading >= q[0].delayBefore {
          log := log + [Send(target, q[0].events), Restart];
          sent := sent + 1;
          q := q[1..];
        } else {
          stop := true;
        }
        rest := rest[1..];
      }
    }
  }

  // ---------------------------------------------------------------------------
  // Blocking run (`execute*` in blocking mode, one channel)

  /** The spin for one batch started at reading `start` and let it go at reading `at`. */
  predicate WaitedFor(readings: seq<nat>, start: nat, at: nat, delay: int)
  {
    start <= at < |readings| && readings[at] >= delay && forall k :: start <= k < at ==> readings[k] < delay
  }

  /** Where the spin after the last release starts: right after it, or at `from`. */
  function NextStart(from: nat, released: seq<nat>): nat
  {
    if |released| == 0 then from else released[|released| - 1] + 1
  }

  /**
   Batch by batch, each was released at its entry of `released` after
   spinning on every reading since the previous release (or since `from`).
   */
  predicate Spins<E>(readings: seq<nat>, from: nat, batches: seq<Timed<E>>, released: seq<nat>)
    decreases |released|
  {
    && |released| <= |batches|
    && (|released| > 0 ==>
          && WaitedFor(readings, from, released[0], batches[0].delayBefore)
          && Spins(readings, released[0] + 1, batches[1..], released[1..]))
  }

  /** The first reading at or after `from` that lets a batch with this delay go. */
  function ReleaseAt(readings: seq<nat>, from: nat, delay: int): (r: Option<nat>)
    ensures r.Some? ==> WaitedFor(readings, from, r.value, delay)
    ensures r.None? ==> forall k :: from <= k < |readings| ==> readings[k] < delay
    decreases |readings| - from
  {
    if from >= |readings| then None
    else if readings[from] >= delay then Some(from)
    else ReleaseAt(readings, from + 1, delay)
  }

  /** A blocking run: its effects, the reading each batch was released at, and whether it returned. */
  datatype Blocked<E> = Blocked(log: seq<Effect<E>>, released: seq<nat>, returned: bool)

  /**
   The blocking loop: for each batch in input order, spin until a reading
   reaches its delay, send it, restart the clock. If the trace runs out
   mid-spin the call has not returned yet.
   */
  function RunBlocking<E>(batches: seq<Timed<E>>, readings: seq<nat>, from: nat, target: WinInfo): (r: Blocked<E>)
    ensures Spins(readings, from, batches, r.released)
    ensures r.returned <==> |r.released| == |batches|
    ensures r.log == SendLog(target, batches[..|r.released|])
    ensures !r.returned ==> forall k :: NextStart(from, r.released) <= k < |readings| ==> readings[k] < batches[|r.released|].delayBefore
    decreases |batches|
  {
    if |batches| == 0 then Blocked([], [], true)
    else
      match ReleaseAt(readings, from, batches[0].delayBefore)
      case None => Blocked([], [], false)
      case Some(j) =>
        var rest := RunBlocking(batches[1..], readings, j + 1, target);
        SpinsCons(readings, from, j, batches, rest.released);
        assert Spins(readings, from, batches, [j] + rest.released);
        Blocked([Send(target, batches[0].events), Restart] + rest.log, [j] + rest.released, rest.returned)
  }

  /** Index bookkeeping: a release of the first batch followed by the releases of the rest. */
  lemma SpinsCons<E>(readings: seq<nat>, from: nat, j: nat, batches: seq<Timed<E>>, rest: seq<nat>)
    requires |batches| > 0 && |rest| <= |batches| - 1
    ensures NextStart(from, [j] + rest) == NextStart(j + 1, rest)
    ensures |rest| < |batches| - 1 ==> batches[|rest| + 1] == batches[1..][|rest|]
    ensures batches[..|rest| + 1] == [batches[0]] + batches[1..][..|rest|]
    ensures ([j] + rest)[1..] == rest
  {
  }

  /** Releases lie within the trace at strictly increasing readings: batches go one after another. */
  lemma {:induction false} ReleasesIncrease<E>(readings: seq<nat>, from: nat, batches: seq<Timed<E>>, released: seq<nat>)
    requires Spins(readings, from, batches, released)
    ensures forall i :: 0 <= i < |released| ==> from <= released[i] < |readings|
    ensures forall i, j :: 0 <= i < j < |released| ==> released[i] < released[j]
    decreases |released|
  {
    if |released| > 0 {
      ReleasesIncrease(readings, released[0] + 1, batches[1..], released[1..]);
      assert forall i :: 1 <= i < |released| ==> released[i] == released[1..][i - 1];
    }
  }

  function SumDelays<E>(batches: seq<Timed<E>>): int
  {
    if |batches| == 0 then 0 else batches[0].delayBefore + SumDelays(batches[1..])
  }

  /** The sum of the readings at which batches were released. */
  function SumReleaseReadings(readings: seq<nat>, released: seq<nat>): nat
    requires forall i :: 0 <= i < |released| ==> released[i] < |readings|
  {
    if |released| == 0 then 0 else readings[released[0]] + SumReleaseReadings(readings, released[1..])
  }

  /**
   Since the clock restarts at each dispatch, the readings at release add up
   to the time a blocking run spent waiting; that time covers every delay.
   */
  lemma {:induction false} WaitCoversDelays<E>(readings: seq<nat>, from: nat, batches: seq<Timed<E>>, released: seq<nat>)
    requires Spins(readings, from, batches, released)
    ensures forall i :: 0 <= i < |released| ==> released[i] < |readings|
    ensures SumReleaseReadings(readings, released) >= SumDelays(batches[..|released|])
    decreases |released|
  {
    ReleasesIncrease(readings, from, batches, released);
    if |released| > 0 {
      var n := |released|;
      WaitCoversDelays(readings, released[0] + 1, batches[1..], released[1..]);
      assert batches[..n][1..] == batches[1..][..n - 1];
    }
  }

  // ---------------------------------------------------------------------------
  // `executeKeys` / `executeMouse`, one channel

  /** A channel after an execute call. */
  datatype ChannelStep<E> = ChannelStep(queue: seq<Timed<E>>, log: seq<Effect<E>>, readings: seq<nat>, released: seq<nat>, returned: bool)

  /**
   An execute call on one channel: nothing at all when unbound; otherwise
   restart the clock, then either run the batches now (blocking; the queue
   is left alone) or queue them behind or instead of the pending ones.
   */
  function Execute<E>(bound: bool, blocking: bool, queue: seq<Timed<E>>, batches: seq<Timed<E>>, append: bool, readings: seq<nat>, target: WinInfo): (r: ChannelStep<E>)
    ensures !bound ==> r == ChannelStep(queue, [], readings, [], true)
    ensures bound && !blocking && !append ==> r.queue == batches
    ensures bound && !blocking && append ==> r.queue == queue + batches
    ensures bound && !blocking ==> r.log == [Restart] && r.readings == readings && r.returned
    ensures bound && blocking ==> r.queue == queue && Spins(readings, 0, batches, r.released)
    ensures bound && blocking ==> r.log == [Restart] + SendLog(target, batches[..|r.released|])
    ensures bound && blocking ==> (r.returned <==> |r.released| == |batches|)
    ensures bound && blocking && !r.returned ==>
      forall k :: NextStart(0, r.released) <= k < |readings| ==> readings[k] < batches[|r.released|].delayBefore
    ensures |r.readings| <= |readings| && r.readings == readings[|readings| - |r.readings|..]
  {
    if !bound then
      ChannelStep(queue, [], readings, [], true)
    else if blocking then
      var run := RunBlocking(batches, readings, 0, target);
      ReleasesIncrease(readings, 0, batches, run.released);
      var next := if run.returned then NextStart(0, run.released) else |readings|;
      ChannelStep(queue, [Restart] + run.log, readings[next..], run.released, run.returned)
    else
      ChannelStep(if append then queue + batches else batches, [Restart], readings, [], true)
  }

  /** The readings at which batches were let go lie in the trace and add up to at least `total`. */
  predicate WaitedAtLeast(readings: seq<nat>, released: seq<nat>, total: int)
  {
    && (forall i :: 0 <= i < |released| ==> released[i] < |readings|)
    && SumReleaseReadings(readings, released) >= total
  }

  /** A blocking execute that returned sent every batch and waited at least their total delay. */
  lemma ExecuteCoversDelays<E>(queue: seq<Timed<E>>, batches: seq<Timed<E>>, append: bool, readings: seq<nat>, target: WinInfo)
    requires Execute(true, true, queue, batches, append, readings, target).returned
    ensures Execute(true, true, queue, batches, append, readings, target).log == [Restart] + SendLog(target, batches)
    ensures WaitedAtLeast(readings, Execute(true, true, queue, batches, append, readings, target).released, SumDelays(batches))
  {
    var r := Execute(true, true, queue, batches, append, readings, target);
    assert batches[..|r.released|] == batches;
    WaitCoversDelays(readings, 0, batches, r.released);
  }

  /** Every batch of `batches` is due at this reading. */
  predicate AllDue<E>(batches: seq<Timed<E>>, reading: nat)
  {
    forall i :: 0 <= i < |batches| ==> Due(batches[i], reading)
  }

  /**
   The two disciplines agree when every reading is already past every delay:
   a blocking run and a drain of the same batches dispatch the same effects.
   */
  lemma {:induction false} BlockingMatchesDrain<E>(batches: seq<Timed<E>>, readings: seq<nat>, from: nat, target: WinInfo)
    requires from + |batches| <= |readings|
    requires forall k :: from <= k < |readings| ==> AllDue(batches, readings[k])
    ensures RunBlocking(batches, readings, from, target).returned
    ensures RunBlocking(batches, readings, from, target).log == Drain(batches, readings[from..], target).log
    ensures Drain(batches, readings[from..], target).sent == |batches|
    decreases |batches|
  {
    if |batches| > 0 {
      assert AllDue(batches, readings[from]);
      assert ReleaseAt(readings, from, batches[0].delayBefore) == Some(from);
      forall k | from + 1 <= k < |readings|
        ensures AllDue(batches[1..], readings[k])
      {
        assert AllDue(batches, readings[k]);
      }
      BlockingMatchesDrain(batches[1..], readings, from + 1, target);
      assert readings[from..][1..] == readings[from + 1..];
    }
  }
}

=== FILE: win_types.dfy ===
/**
 The value types shared by the window resolver, the input translator and the
 scheduler: Win32 integer widths, window identities and geometry, key and
 mouse events, and the wide-string containment test used for title matching.
 */
module WinTypes {

  import opened Wrappers

  /** WORD, DWORD, LONG and int of the Win32 headers, as bounded integers. */
  type Word = x: int | 0 <= x < 0x1_0000
  type Dword = x: int | 0 <= x < 0x1_0000_0000
  type Long = x: int | -0x8000_0000 <= x < 0x8000_0000
  type Int32 = x: int | -0x8000_0000 <= x < 0x8000_0000
  type Byte = x: int | 0 <= x < 0x100

  /** What a window-list snapshot records about one top-level window. */
  datatype WinInfo = WinInfo(title: string, isVisible: bool, pid: Dword, tid: Dword)

  /** Cached window geometry; every field is zero when the rectangle could not be read. */
  datatype Dimensions = Dimensions(topLeft: (int, int), bottomRight: (int, int), width: int, height: int)

  const ZeroDimensions := Dimensions((0, 0), (0, 0), 0, 0)

  // ---------------------------------------------------------------------------
  // Key events

  datatype KeyType = KeyNone | Typed | Pressed | Released

  datatype KeyEvent = KeyEvent(vKey: Word, kind: KeyType, scanCode: bool, isExtended: bool)

  /** The `KeyEvent(vKey, type, scanCode, isExtended)` constructor with its header defaults. */
  function MakeKey(vKey: Word, kind: KeyType := Typed, scanCode: bool := true, isExtended: bool := false): (e: KeyEvent)
    ensures e.vKey == vKey && e.kind == kind
    ensures e.scanCode == scanCode && e.isExtended == isExtended
  {
    KeyEvent(vKey, kind, scanCode, isExtended)
  }

  /** A key built from a virtual-key code alone is typed, sent by scan code, not extended. */
  lemma KeyDefaults(vKey: Word)
    ensures MakeKey(vKey).kind == Typed
    ensures MakeKey(vKey).scanCode && !MakeKey(vKey).isExtended
  {
  }

  // ---------------------------------------------------------------------------
  // Mouse events

  datatype MouseType = MouseNone | Move | MoveAbs | MoveDesktop | Scroll | ButtonPressed | ButtonDown | ButtonUp

  datatype MouseKey = NoButton | LeftButton | RightButton | MiddleButton

  datatype MouseEvent = MouseEvent(kind: MouseType, key: MouseKey, dx: Long, dy: Long, scrollDelta: Dword)

  /** The `MouseEvent(type, key)` constructor: movement and scroll start at zero. */
  function MakeMouse(kind: MouseType, key: MouseKey := NoButton): (e: MouseEvent)
    ensures e.kind == kind && e.key == key
    ensures e.dx == 0 && e.dy == 0 && e.scrollDelta == 0
  {
    MouseEvent(kind, key, 0, 0, 0)
  }

  /** The default `MouseEvent()` constructor: no event, no button. */
  function DefaultMouse(): (e: MouseEvent)
    ensures e.kind == MouseNone && e.key == NoButton
    ensures e.dx == 0 && e.dy == 0 && e.scrollDelta == 0
  {
    MakeMouse(MouseNone)
  }

  /** `setMoveValues`: replaces the movement, leaves everything else alone. */
  function SetMoveValues(e: MouseEvent, dx: Long, dy: Long): (r: MouseEvent)
    ensures r.dx == dx && r.dy == dy
    ensures r.kind == e.kind && r.key == e.key && r.scrollDelta == e.scrollDelta
  {
    e.(dx := dx, dy := dy)
  }

  /** `setScrollDelta`: replaces the wheel delta, leaves everything else alone. */
  function SetScrollDelta(e: MouseEvent, d: Dword): (r: MouseEvent)
    ensures r.scrollDelta == d
    ensures r.kind == e.kind && r.key == e.key && r.dx == e.dx && r.dy == e.dy
  {
    e.(scrollDelta := d)
  }

  // ---------------------------------------------------------------------------
  // Title containment: `a.find(b) != npos`

  /** `needle` occurs in `haystack` starting at position `i`. */
  predicate OccursAt(haystack: string, needle: string, i: int)
  {
    0 <= i && i + |needle| <= |haystack| && haystack[i..i + |needle|] == needle
  }

  /** `std::wstring::find`: the lowest position at which `needle` occurs, if any. */
  function Find(haystack: string, needle: string): (r: Option<nat>)
    ensures r.Some? ==> OccursAt(haystack, needle, r.value)
    ensures r.Some? ==> forall j :: 0 <= j < r.value ==> !OccursAt(haystack, needle, j)
    ensures r.None? ==> forall j :: !OccursAt(haystack, needle, j)
    decreases |haystack|
  {
    if needle <= haystack then
      assert haystack[0..|needle|] == needle;
      Some(0)
    else if |haystack| == 0 then
      None
    else
      var rest := Find(haystack[1..], needle);
      ShiftOccurrence(haystack, needle);
      match rest
      case None => None
      case Some(i) => Some(i + 1)
  }

  /** An occurrence one position into the whole is an occurrence in the tail. */
  lemma ShiftOccurrence(haystack: string, needle: string)
    requires |haystack| > 0
    ensures forall j :: 1 <= j ==> (OccursAt(haystack, needle, j) <==> OccursAt(haystack[1..], needle, j - 1))
    ensures needle <= haystack <==> OccursAt(haystack, needle, 0)
  {
    forall j | 1 <= j
      ensures OccursAt(haystack, needle, j) <==> OccursAt(haystack[1..], needle, j - 1)
    {
      if j + |needle| <= |haystack| {
        assert haystack[1..][j - 1..j - 1 + |needle|] == haystack[j..j + |needle|];
      }
    }
    if needle <= haystack {
      assert haystack[0..|needle|] == needle;
    }
  }

  /** The `STD_WSTRING_CONTAINS(a, b)` macro. */
  predicate Contains(haystack: string, needle: string)
  {
    Find(haystack, needle).Some?
  }

  /** Containment holds exactly when the needle occurs contiguously somewhere. */
  lemma ContainsIffOccurs(haystack: string, needle: string)
    ensures Contains(haystack, needle) <==> exists i :: OccursAt(haystack, needle, i)
  {
    if Contains(haystack, needle) {
      assert OccursAt(haystack, needle, Find(haystack, needle).value);
    }
  }

  /** An empty query is contained in every title, including the empty one. */
  lemma EmptyNeedleContained(haystack: string)
    ensures Contains(haystack, "")
    ensures Find(haystack, "") == Some(0)
  {
  }

  /** A title always contains itself. */
  lemma ContainsSelf(s: string)
    ensures Contains(s, s)
  {
    assert OccursAt(s, s, 0);
    ContainsIffOccurs(s, s);
  }
}

=== FILE: windows.dfy ===
/**
 The window directory: the snapshot built by enumerating top-level windows,
 the visible-only filter, first-match search, re-resolution of a stored
 identity to a live handle, and window geometry.
 */
module Windows {

  import opened Wrappers
  import opened WinTypes

  /** Size of the title buffer handed to `GetWindowTextW`, terminator included. */
  const TitleBufferSize := 1024

  /** One enumerated top-level window as the OS reports it. */
  datatype RawWindow = RawWindow(text: string, isVisible: bool, pid: Dword, tid: Dword)

  /** The title as copied into the fixed buffer: at most `TitleBufferSize - 1` characters. */
  function CapturedTitle(text: string): (t: string)
    ensures |t| <= TitleBufferSize - 1
    ensures t <= text
    ensures |text| > 0 ==> |t| > 0
    ensures |text| < TitleBufferSize ==> t == text
    ensures |text| >= TitleBufferSize ==> |t| == TitleBufferSize - 1
  {
    if |text| < TitleBufferSize then text else text[..TitleBufferSize - 1]
  }

  function Capture(w: RawWindow): WinInfo
  {
    WinInfo(CapturedTitle(w.text), w.isVisible, w.pid, w.tid)
  }

  /** `GetWindowList`: the enumeration callback skips untitled windows and keeps the rest in order. */
  function WindowList(raw: seq<RawWindow>): (r: seq<WinInfo>)
    ensures |r| <= |raw|
    ensures forall i :: 0 <= i < |r| ==> 0 < |r[i].title| < TitleBufferSize
    ensures forall w :: w in r <==> exists i :: 0 <= i < |raw| && |raw[i].text| > 0 && Capture(raw[i]) == w
  {
    if |raw| == 0 then []
    else
      var rest := WindowList(raw[1..]);
      assert forall i :: 1 <= i < |raw| ==> raw[i] == raw[1..][i - 1];
      if |raw[0].text| == 0 then rest else [Capture(raw[0])] + rest
  }

  /** Enumerating two runs of windows one after the other snapshots each run in turn. */
  lemma {:induction false} WindowListAppend(a: seq<RawWindow>, b: seq<RawWindow>)
    ensures WindowList(a + b) == WindowList(a) + WindowList(b)
  {
    if |a| == 0 {
      assert a + b == b;
    } else {
      assert (a + b)[1..] == a[1..] + b;
      WindowListAppend(a[1..], b);
    }
  }

  /** `GetVisibleWindowList`: the visible entries of the snapshot, in snapshot order. */
  function VisibleWindows(snapshot: seq<WinInfo>): (r: seq<WinInfo>)
    ensures |r| <= |snapshot|
    ensures forall w :: w in r <==> w in snapshot && w.isVisible
  {
    if |snapshot| == 0 then []
    else
      var rest := VisibleWindows(snapshot[1..]);
      assert forall w :: w in snapshot <==> w == snapshot[0] || w in snapshot[1..];
      if snapshot[0].isVisible then [snapshot[0]] + rest else rest
  }

  /** Filtering commutes with concatenation, so relative order is kept. */
  lemma {:induction false} VisibleWindowsAppend(a: seq<WinInfo>, b: seq<WinInfo>)
    ensures VisibleWindows(a + b) == VisibleWindows(a) + VisibleWindows(b)
  {
    if |a| == 0 {
      assert a + b == b;
    } else {
      assert (a + b)[1..] == a[1..] + b;
      VisibleWindowsAppend(a[1..], b);
    }
  }

  // ---------------------------------------------------------------------------
  // First match

  /** The index of the first snapshot entry `matches` accepts. */
  function FindFirst(snapshot: seq<WinInfo>, matches: WinInfo -> bool): (r: Option<nat>)
    ensures r.Some? ==> r.value < |snapshot| && matches(snapshot[r.value])
    ensures r.Some? ==> forall j :: 0 <= j < r.value ==> !matches(snapshot[j])
    ensures r.None? ==> forall j :: 0 <= j < |snapshot| ==> !matches(snapshot[j])
  {
    if |snapshot| == 0 then None
    else if matches(snapshot[0]) then Some(0)
    else
      match FindFirst(snapshot[1..], matches)
      case None => None
      case Some(i) => Some(i + 1)
  }

  /** A title query matches a window whose title contains it. */
  predicate TitleMatches(query: string, w: WinInfo)
  {
    Contains(w.title, query)
  }

  predicate PidMatches(pid: Dword, w: WinInfo)
  {
    w.pid == pid
  }

  /** The re-resolution fallback: title containment, then pid, then tid, for one entry. */
  predicate FallbackMatches(stored: WinInfo, w: WinInfo)
  {
    if Contains(w.title, stored.title) then true
    else if w.pid == stored.pid then true
    else w.tid == stored.tid
  }

  // ---------------------------------------------------------------------------
  // Re-resolution of a stored identity

  /**
   What `FindWindow` on a title followed by `GetWindowThreadProcessId` and
   `IsWindow` on the handle report; a handle of 0 is NULL.
   */
  datatype Lookup = Lookup(handle: nat, pid: Dword, tid: Dword, valid: bool)

  /** The direct lookup is accepted when pid or tid agree and the handle is a live window. */
  predicate Verified(window: WinInfo, l: Lookup)
  {
    (l.pid == window.pid || l.tid == window.tid) && l.valid
  }

  /**
   The result of `getWindowHWND`: the handle (0 on failure), the identity the
   by-reference argument holds afterwards, and the titles looked up in order.
   */
  datatype Resolution = Resolution(handle: nat, window: WinInfo, lookups: seq<string>)

  /**
   `getWindowHWND(window, allowUpdate)`: accept the direct lookup of the
   stored title, or, when updating is allowed, replace the identity by the
   first snapshot entry the fallback accepts and look that one up once more
   without updating.
   */
  function GetWindowHandle(window: WinInfo, allowUpdate: bool := false, find: string -> Lookup, snapshot: seq<WinInfo>): (r: Resolution)
    ensures 1 <= |r.lookups| <= 2 && r.lookups[0] == window.title
    ensures r.handle != 0 ==> Verified(r.window, find(r.window.title)) && r.handle == find(r.window.title).handle
    ensures Verified(window, find(window.title)) ==> r == Resolution(find(window.title).handle, window, [window.title])
    ensures !Verified(window, find(window.title)) && !allowUpdate ==> r == Resolution(0, window, [window.title])
    ensures |r.lookups| == 2 ==> allowUpdate && !Verified(window, find(window.title)) && r.lookups[1] == r.window.title
    ensures r.window != window ==> allowUpdate && r.window in snapshot
    decreases allowUpdate
  {
    var direct := find(window.title);
    if Verified(window, direct) then
      Resolution(direct.handle, window, [window.title])
    else if !allowUpdate then
      Resolution(0, window, [window.title])
    else
      match FindFirst(snapshot, w => FallbackMatches(window, w))
      case None => Resolution(0, window, [window.title])
      case Some(i) =>
        var retry := GetWindowHandle(snapshot[i], false, find, snapshot);
        Resolution(retry.handle, retry.window, [window.title] + retry.lookups)
  }

  /**
   With updating allowed and the direct lookup rejected, the identity becomes
   the first entry that matches by title, pid or tid, and the handle is what
   one non-updating lookup of that entry yields; with no such entry it fails.
   */
  lemma FallbackOutcome(window: WinInfo, find: string -> Lookup, snapshot: seq<WinInfo>)
    requires !Verified(window, find(window.title))
    ensures var r := GetWindowHandle(window, true, find, snapshot);
      match FindFirst(snapshot, w => FallbackMatches(window, w))
      case None => r == Resolution(0, window, [window.title])
      case Some(i) =>
        && r.window == snapshot[i]
        && r.lookups == [window.title, snapshot[i].title]
        && r.handle == (if Verified(snapshot[i], find(snapshot[i].title)) then find(snapshot[i].title).handle else 0)
        && (forall j :: 0 <= j < i ==> !FallbackMatches(window, snapshot[j]))
  {
  }

  /** The entry the fallback settles on is the first that matches by title, pid or tid. */
  lemma FallbackPicksFirstMatch(window: WinInfo, find: string -> Lookup, snapshot: seq<WinInfo>)
    requires !Verified(window, find(window.title))
    requires exists j :: 0 <= j < |snapshot| && FallbackMatches(window, snapshot[j])
    ensures var r := GetWindowHandle(window, true, find, snapshot);
      exists i :: 0 <= i < |snapshot| && r.window == snapshot[i] && FallbackMatches(window, snapshot[i])
        && forall j :: 0 <= j < i ==> !FallbackMatches(window, snapshot[j])
  {
  }

  /**
   A handle found once is found again: re-resolving the identity the call
   left behind, without updating, yields the same handle and identity.
   */
  lemma {:induction false} ResolveStable(window: WinInfo, allowUpdate: bool, find: string -> Lookup, snapshot: seq<WinInfo>)
    requires GetWindowHandle(window, allowUpdate, find, snapshot).handle != 0
    ensures var r := GetWindowHandle(window, allowUpdate, find, snapshot);
      GetWindowHandle(r.window, false, find, snapshot) == Resolution(r.handle, r.window, [r.window.title])
  {
  }

  /** Without `allowUpdate` the identity is never replaced: the only lookup is of its own title. */
  lemma NoUpdateByDefault(window: WinInfo, find: string -> Lookup, snapshot: seq<WinInfo>)
    ensures GetWindowHandle(window, find := find, snapshot := snapshot).window == window
    ensures GetWindowHandle(window, find := find, snapshot := snapshot).lookups == [window.title]
    ensures GetWindowHandle(window, find := find, snapshot := snapshot).handle ==
      (if Verified(window, find(window.title)) then find(window.title).handle else 0)
  {
  }

  // ---------------------------------------------------------------------------
  // Geometry

  /** What `GetWindowRect` fills in. */
  datatype Rect = Rect(left: Long, top: Long, right: Long, bottom: Long)

  /** Geometry from a rectangle read, or all zeros when the read failed. */
  function DimensionsOf(rect: Option<Rect>): (d: Dimensions)
    ensures rect.None? ==> d == ZeroDimensions
    ensures rect.Some? ==> d.topLeft == (rect.value.left, rect.value.top) && d.bottomRight == (rect.value.right, rect.value.bottom)
    ensures d.topLeft.0 + d.width == d.bottomRight.0
    ensures d.topLeft.1 + d.height == d.bottomRight.1
  {
    match rect
    case None => ZeroDimensions
    case Some(rc) => Dimensions((rc.left, rc.top), (rc.right, rc.bottom), rc.right - rc.left, rc.bottom - rc.top)
  }

  /** The OS state one call sees: the enumerated windows, title lookup and rectangle read. */
  datatype DesktopState = DesktopState(windows: seq<RawWindow>, find: string -> Lookup, rectOf: nat -> Option<Rect>)

  /**
   What Win32 itself guarantees of the oracles: `IsWindow(NULL)` is false, so
   no lookup reports the NULL handle as live, and `GetWindowRect(NULL)` fails.
   */
  ghost predicate WellFormed(d: DesktopState)
  {
    && (forall t :: d.find(t).valid ==> d.find(t).handle != 0)
    && d.rectOf(0).None?
  }

  /** A desktop the OS can present. */
  type Desktop = d: DesktopState | WellFormed(d)
    witness DesktopState([], t => Lookup(0, 0, 0, false), h => None)

  function Snapshot(d: Desktop): seq<WinInfo>
  {
    WindowList(d.windows)
  }

  /** `GetWindowDimensions`: resolve without updating, then read the rectangle of that handle. */
  function WindowDimensions(window: WinInfo, d: Desktop): (dims: Dimensions)
    ensures Verified(window, d.find(window.title)) ==> dims == DimensionsOf(d.rectOf(d.find(window.title).handle))
    ensures !Verified(window, d.find(window.title)) ==> dims == DimensionsOf(d.rectOf(0))
    ensures !Verified(window, d.find(window.title)) ==> dims == ZeroDimensions
  {
    DimensionsOf(d.rectOf(GetWindowHandle(window, find := d.find, snapshot := Snapshot(d)).handle))
  }
}

=== FILE: winterface.dfy ===
/**
 The automation session: bind state, the single blocking flag, the stored
 window identity and geometry, and a key channel and a mouse channel, with
 the operations a caller drives it through. The session's fields stand for
 `isBound`, `isBlocking`, `getWinInfo` and `getWindowDimensions`.
 */
module Winterface {

  import opened Wrappers
  import opened WinTypes
  import opened Windows
  import opened Scheduler

  datatype Session = Session(
    bound: bool,
    blocking: bool,
    info: WinInfo,
    dims: Dimensions,
    keys: seq<Timed<KeyEvent>>,
    mice: seq<Timed<MouseEvent>>)

  /** The readings each channel clock will still give, in order. */
  datatype Clocks = Clocks(keys: seq<nat>, mice: seq<nat>)

  /**
   One call on the session: the session afterwards, each channel's effects,
   the readings left, the readings at which a blocking run released its
   batches, and whether the call returned within the readings supplied.
   */
  datatype Step = Step(
    session: Session,
    keyLog: seq<Effect<KeyEvent>>,
    mouseLog: seq<Effect<MouseEvent>>,
    clocks: Clocks,
    released: seq<nat>,
    returned: bool)

  /** A call that changed nothing and sent nothing. */
  function Idle(s: Session, clocks: Clocks): Step
  {
    Step(s, [], [], clocks, [], true)
  }

  /**
   The constructor: unbound, non-blocking, nothing queued. The identity's
   title starts empty; its other fields and the geometry are left as the
   members happen to be, which is what `info` and `dims` stand for.
   */
  function NewSession(info: WinInfo, dims: Dimensions): (s: Session)
    ensures !s.bound && !s.blocking
    ensures s.keys == [] && s.mice == []
    ensures s.info.title == ""
    ensures s.dims.topLeft == (0, 0) && s.dims.bottomRight == (0, 0)
  {
    Session(false, false, info.(title := ""), dims.(topLeft := (0, 0), bottomRight := (0, 0)), [], [])
  }

  /** `unbind`: only the bound flag changes; identity, geometry, queues and mode stay readable. */
  function Unbind(s: Session): (r: Session)
    ensures !r.bound
    ensures r.blocking == s.blocking && r.info == s.info && r.dims == s.dims
    ensures r.keys == s.keys && r.mice == s.mice
  {
    s.(bound := false)
  }

  /** `setBlocking`: one flag governs both channels; nothing else changes. */
  function SetBlocking(s: Session, block: bool): (r: Session)
    ensures r.blocking == block
    ensures r.bound == s.bound && r.info == s.info && r.dims == s.dims
    ensures r.keys == s.keys && r.mice == s.mice
  {
    s.(blocking := block)
  }

  /** `hasEventsInQueue`. */
  function HasEventsInQueue(s: Session): (r: bool)
    ensures r <==> s.keys != [] || s.mice != []
  {
    |s.keys| > 0 || |s.mice| > 0
  }

  /** `update`: when bound, refresh the geometry of the stored identity; otherwise nothing. */
  function Update(s: Session, d: Desktop): (r: Session)
    ensures !s.bound ==> r == s
    ensures s.bound ==> r.dims == WindowDimensions(s.info, d)
    ensures r.bound == s.bound && r.blocking == s.blocking && r.info == s.info
    ensures r.keys == s.keys && r.mice == s.mice
  {
    if !s.bound then s else s.(dims := WindowDimensions(s.info, d))
  }

  // ---------------------------------------------------------------------------
  // Binding

  /** Whether a bind succeeded, and the session it leaves. */
  datatype BindResult = BindResult(ok: bool, session: Session)

  /** Bind to the first snapshot entry `matches` accepts, then refresh geometry. */
  function BindFirst(s: Session, d: Desktop, matches: WinInfo -> bool): (r: BindResult)
    ensures !r.ok ==> r.session == s
    ensures !r.ok <==> forall j :: 0 <= j < |Snapshot(d)| ==> !matches(Snapshot(d)[j])
    ensures r.ok ==> exists i :: (0 <= i < |Snapshot(d)| && r.session.info == Snapshot(d)[i] && matches(Snapshot(d)[i])
      && forall j :: 0 <= j < i ==> !matches(Snapshot(d)[j]))
    ensures r.ok ==> r.session.bound && r.session.dims == WindowDimensions(r.session.info, d)
    ensures r.ok ==> r.session.blocking == s.blocking && r.session.keys == s.keys && r.session.mice == s.mice
  {
    var snapshot := Snapshot(d);
    match FindFirst(snapshot, matches)
    case None => BindResult(false, s)
    case Some(i) =>
      assert snapshot[i] == Snapshot(d)[i];
      BindResult(true, Update(s.(info := snapshot[i], bound := true), d))
  }

  /** `bind(std::wstring&)`: the first window whose title contains the query. */
  function BindTitle(s: Session, query: string, d: Desktop): (r: BindResult)
    ensures !r.ok ==> r.session == s
    ensures r.ok <==> exists j :: 0 <= j < |Snapshot(d)| && Contains(Snapshot(d)[j].title, query)
    ensures r.ok ==> exists i :: (0 <= i < |Snapshot(d)| && r.session.info == Snapshot(d)[i] && Contains(Snapshot(d)[i].title, query)
      && forall j :: 0 <= j < i ==> !Contains(Snapshot(d)[j].title, query))
    ensures r.ok ==> r.session.bound && r.session.dims == WindowDimensions(r.session.info, d)
    ensures r.ok ==> r.session.blocking == s.blocking && r.session.keys == s.keys && r.session.mice == s.mice
  {
    BindFirst(s, d, w => TitleMatches(query, w))
  }

  /** `bind(DWORD)`: the first window owned by the process. */
  function BindPid(s: Session, pid: Dword, d: Desktop): (r: BindResult)
    ensures !r.ok ==> r.session == s
    ensures r.ok <==> exists j :: 0 <= j < |Snapshot(d)| && Snapshot(d)[j].pid == pid
    ensures r.ok ==> exists i :: (0 <= i < |Snapshot(d)| && r.session.info == Snapshot(d)[i] && r.session.info.pid == pid
      && forall j :: 0 <= j < i ==> Snapshot(d)[j].pid != pid)
    ensures r.ok ==> r.session.bound && r.session.dims == WindowDimensions(r.session.info, d)
    ensures r.ok ==> r.session.blocking == s.blocking && r.session.keys == s.keys && r.session.mice == s.mice
  {
    BindFirst(s, d, w => PidMatches(pid, w))
  }

  /** The bytes of a narrow `std::string` as a C string: everything before the first NUL. */
  function UpToNul(str: seq<Byte>): (r: seq<Byte>)
    ensures r <= str && 0 !in r
    ensures |r| < |str| ==> str[|r|] == 0
  {
    if |str| == 0 || str[0] == 0 then [] else [str[0]] + UpToNul(str[1..])
  }

  /** Streaming narrow characters into a wide stream in the "C" locale: byte `b` becomes character `b`. */
  function Widen(bytes: seq<Byte>): (w: string)
    ensures |w| == |bytes|
    ensures forall i :: 0 <= i < |w| ==> w[i] as int == bytes[i]
  {
    seq(|bytes|, i requires 0 <= i < |bytes| => bytes[i] as char)
  }

  /** Widening loses nothing: different byte strings widen to different queries. */
  lemma WidenInjective(a: seq<Byte>, b: seq<Byte>)
    requires Widen(a) == Widen(b)
    ensures a == b
  {
    assert |a| == |b|;
    forall i | 0 <= i < |a|
      ensures a[i] == b[i]
    {
      assert Widen(a)[i] == Widen(b)[i];
    }
  }

  /**
   `bind(std::string&)`: the bytes are streamed through `c_str()`, so they end
   at the first NUL, and each is widened on its own; the search is then the
   title search.
   */
  function BindNarrow(s: Session, str: seq<Byte>, d: Desktop): (r: BindResult)
    ensures 0 !in str ==> r == BindTitle(s, Widen(str), d)
    ensures r == BindTitle(s, Widen(UpToNul(str)), d)
  {
    NoNulUnchanged(str);
    BindTitle(s, Widen(UpToNul(str)), d)
  }

  /** A byte string without NUL passes through `c_str()` whole. */
  lemma {:induction false} NoNulUnchanged(str: seq<Byte>)
    ensures 0 !in str ==> UpToNul(str) == str
  {
    if |str| > 0 && 0 !in str {
      assert 0 !in str[1..];
      NoNulUnchanged(str[1..]);
    }
  }

  /**
   The UTF-8 bytes of "é" widen byte by byte to two characters, so they do not
   find a window titled "é".
   */
  lemma NarrowUtf8Scenario(s: Session, d: Desktop)
    requires Snapshot(d) == [WinInfo("\U{E9}", true, 42, 7)]
    ensures Widen([0xC3, 0xA9]) == "\U{C3}\U{A9}"
    ensures !BindNarrow(s, [0xC3, 0xA9], d).ok
  {
    var q := Widen([0xC3, 0xA9]);
    assert q == "\U{C3}\U{A9}";
    ContainsIffOccurs("\U{E9}", q);
  }

  // ---------------------------------------------------------------------------
  // Execution

  /** `executeKeys(batches, appendToQueue)`; the mouse channel is not touched. */
  function ExecuteKeys(s: Session, batches: seq<Timed<KeyEvent>>, append: bool := false, clocks: Clocks): (r: Step)
    ensures !s.bound ==> r == Idle(s, clocks)
    ensures r.session.(keys := s.keys) == s
    ensures r.mouseLog == [] && r.clocks.mice == clocks.mice
    ensures s.bound && !s.blocking ==> r.session.keys == (if append then s.keys + batches else batches)
    ensures s.bound && !s.blocking ==> r.keyLog == [Restart] && r.clocks == clocks && r.returned
    ensures s.bound && s.blocking ==> r.session == s && Spins(clocks.keys, 0, batches, r.released)
    ensures s.bound && s.blocking ==> r.keyLog == [Restart] + SendLog(s.info, batches[..|r.released|])
    ensures s.bound && s.blocking ==> (r.returned <==> |r.released| == |batches|)
    ensures s.bound && s.blocking && !r.returned ==>
      forall k :: NextStart(0, r.released) <= k < |clocks.keys| ==> clocks.keys[k] < batches[|r.released|].delayBefore
  {
    var c := Execute(s.bound, s.blocking, s.keys, batches, append, clocks.keys, s.info);
    Step(s.(keys := c.queue), c.log, [], clocks.(keys := c.readings), c.released, c.returned)
  }

  /** `executeMouse(batches, appendToQueue)`; the key channel is not touched. */
  function ExecuteMouse(s: Session, batches: seq<Timed<MouseEvent>>, append: bool := false, clocks: Clocks): (r: Step)
    ensures !s.bound ==> r == Idle(s, clocks)
    ensures r.session.(mice := s.mice) == s
    ensures r.keyLog == [] && r.clocks.keys == clocks.keys
    ensures s.bound && !s.blocking ==> r.session.mice == (if append then s.mice + batches else batches)
    ensures s.bound && !s.blocking ==> r.mouseLog == [Restart] && r.clocks == clocks && r.returned
    ensures s.bound && s.blocking ==> r.session == s && Spins(clocks.mice, 0, batches, r.released)
    ensures s.bound && s.blocking ==> r.mouseLog == [Restart] + SendLog(s.info, batches[..|r.released|])
    ensures s.bound && s.blocking ==> (r.returned <==> |r.released| == |batches|)
    ensures s.bound && s.blocking && !r.returned ==>
      forall k :: NextStart(0, r.released) <= k < |clocks.mice| ==> clocks.mice[k] < batches[|r.released|].delayBefore
  {
    var c := Execute(s.bound, s.blocking, s.mice, batches, append, clocks.mice, s.info);
    Step(s.(mice := c.queue), [], c.log, clocks.(mice := c.readings), c.released, c.returned)
  }

  /** `queue` drained to `rest` dispatched exactly its ready prefix, stopping at the first batch not due. */
  ghost predicate DrainedReadyPrefix<E>(queue: seq<Timed<E>>, rest: seq<Timed<E>>, log: seq<Effect<E>>, readings: seq<nat>, target: WinInfo)
  {
    var n := |queue| - |rest|;
    && 0 <= n
    && rest == queue[n..]
    && log == SendLog(target, queue[..n])
    && (forall i :: 0 <= i < n ==> i < |readings| && Due(queue[i], readings[i]))
    && (n < |queue| ==> n >= |readings| || !Due(queue[n], readings[n]))
  }

  /**
   `tick`: nothing when unbound or blocking; otherwise each channel drains
   the batches that are due, independently of the other.
   */
  function Tick(s: Session, clocks: Clocks): (r: Step)
    ensures !s.bound || s.blocking ==> r == Idle(s, clocks)
    ensures r.session.(keys := s.keys, mice := s.mice) == s
    ensures s.bound && !s.blocking ==> DrainedReadyPrefix(s.keys, r.session.keys, r.keyLog, clocks.keys, s.info)
    ensures s.bound && !s.blocking ==> DrainedReadyPrefix(s.mice, r.session.mice, r.mouseLog, clocks.mice, s.info)
    ensures r.returned && r.released == []
  {
    if !s.bound || s.blocking then
      Idle(s, clocks)
    else
      var k := Drain(s.keys, clocks.keys, s.info);
      var m := Drain(s.mice, clocks.mice, s.info);
      Step(s.(keys := k.queue, mice := m.queue), k.log, m.log, Clocks(k.readings, m.readings), [], true)
  }

  // ---------------------------------------------------------------------------
  // Properties across calls

  /** An unbound session ignores every execute, tick and update: no queue change, no restart, no dispatch. */
  lemma UnboundIsInert(s: Session, keys: seq<Timed<KeyEvent>>, mice: seq<Timed<MouseEvent>>, append: bool, clocks: Clocks, d: Desktop)
    requires !s.bound
    ensures ExecuteKeys(s, keys, append, clocks) == Idle(s, clocks)
    ensures ExecuteMouse(s, mice, append, clocks) == Idle(s, clocks)
    ensures Tick(s, clocks) == Idle(s, clocks)
    ensures Update(s, d) == s
  {
  }

  /** After `unbind` the stale identity stays readable and every later call is inert until rebinding. */
  lemma UnbindThenInert(s: Session, keys: seq<Timed<KeyEvent>>, append: bool, clocks: Clocks)
    ensures Unbind(s).info == s.info && Unbind(s).dims == s.dims
    ensures Tick(Unbind(s), clocks).session == Unbind(s) && Tick(Unbind(s), clocks).keyLog == []
    ensures ExecuteKeys(Unbind(s), keys, append, clocks).session.keys == s.keys
  {
  }

  /**
   One flag decides the mode of both channels: when blocking, neither
   execute touches its queue and `tick` is inert; when not, both queue.
   */
  lemma ModeIsShared(s: Session, keys: seq<Timed<KeyEvent>>, mice: seq<Timed<MouseEvent>>, clocks: Clocks)
    requires s.bound
    ensures s.blocking ==> (
      && ExecuteKeys(s, keys, true, clocks).session.keys == s.keys
      && ExecuteMouse(s, mice, true, clocks).session.mice == s.mice
      && Tick(s, clocks) == Idle(s, clocks))
    ensures !s.blocking ==> (
      && ExecuteKeys(s, keys, true, clocks).session.keys == s.keys + keys
      && ExecuteMouse(s, mice, true, clocks).session.mice == s.mice + mice)
  {
  }

  /** Queues survive `setBlocking`, `unbind` and rebinding. */
  lemma QueuesPersist(s: Session, block: bool, query: string, d: Desktop)
    ensures SetBlocking(s, block).keys == s.keys && SetBlocking(s, block).mice == s.mice
    ensures Unbind(s).keys == s.keys && Unbind(s).mice == s.mice
    ensures BindTitle(s, query, d).session.keys == s.keys && BindTitle(s, query, d).session.mice == s.mice
  {
  }

  /** Without `appendToQueue`, executing on a queuing session leaves exactly the new batches queued. */
  lemma ExecuteReplacesByDefault(s: Session, keys: seq<Timed<KeyEvent>>, mice: seq<Timed<MouseEvent>>, c: Clocks)
    requires s.bound && !s.blocking
    ensures ExecuteKeys(s, keys, clocks := c).session.keys == keys
    ensures ExecuteKeys(s, keys, clocks := c).session.mice == s.mice
    ensures ExecuteMouse(s, mice, clocks := c).session.mice == mice
    ensures ExecuteMouse(s, mice, clocks := c).session.keys == s.keys
  {
  }

  /** Replacing leaves exactly the new batches; appending keeps every pending one. */
  lemma QueueLengths(s: Session, keys: seq<Timed<KeyEvent>>, clocks: Clocks)
    requires s.bound && !s.blocking
    ensures |ExecuteKeys(s, keys, false, clocks).session.keys| == |keys|
    ensures |ExecuteKeys(s, keys, true, clocks).session.keys| == |s.keys| + |keys|
    ensures ExecuteKeys(s, keys, true, clocks).session.keys[..|s.keys|] == s.keys
  {
  }

  /**
   A blocking call that returned has dispatched every batch, in input order,
   and the readings at which batches were let go add up to at least the
   sum of their delays.
   */
  lemma BlockingRunCoversDelays(s: Session, keys: seq<Timed<KeyEvent>>, append: bool, clocks: Clocks, r: Step)
    requires s.bound && s.blocking
    requires r == ExecuteKeys(s, keys, append, clocks) && r.returned
    ensures r.keyLog == [Restart] + SendLog(s.info, keys)
    ensures WaitedAtLeast(clocks.keys, r.released, SumDelays(keys))
  {
    ExecuteCoversDelays(s.keys, keys, append, clocks.keys, s.info);
  }

  /** The key channel's tick does not depend on the mouse channel, and the other way round. */
  lemma TickChannelsIndependent(s: Session, t: Session, clocks: Clocks, other: Clocks)
    requires s.bound == t.bound && s.blocking == t.blocking && s.info == t.info
    ensures s.keys == t.keys && clocks.keys == other.keys ==>
      Tick(s, clocks).keyLog == Tick(t, other).keyLog && Tick(s, clocks).session.keys == Tick(t, other).session.keys
    ensures s.mice == t.mice && clocks.mice == other.mice ==>
      Tick(s, clocks).mouseLog == Tick(t, other).mouseLog && Tick(s, clocks).session.mice == Tick(t, other).session.mice
  {
  }

  /**
   FIFO end to end: batches queued without blocking and then ticked with
   readings past every delay are all sent, in the order given, and the
   queue is left empty.
   */
  lemma QueuedThenTicked(s: Session, keys: seq<Timed<KeyEvent>>, clocks: Clocks, later: seq<nat>)
    requires s.bound && !s.blocking
    requires |keys| <= |later|
    requires forall k :: 0 <= k < |later| ==> AllDue(keys, later[k])
    ensures var queued := ExecuteKeys(s, keys, false, clocks).session;
      && Tick(queued, clocks.(keys := later)).keyLog == SendLog(s.info, keys)
      && Tick(queued, clocks.(keys := later)).session.keys == []
  {
    var queued := ExecuteKeys(s, keys, false, clocks).session;
    assert queued == s.(keys := keys);
    BlockingMatchesDrain(keys, later, 0, s.info);
    assert later[0..] == later;
    var d := Drain(keys, later, s.info);
    assert d.sent == |keys|;
    assert keys[..|keys|] == keys;
    assert Tick(queued, clocks.(keys := later)).keyLog == d.log;
    assert Tick(queued, clocks.(keys := later)).session.keys == d.queue;
  }

  /** The worked case: two batches of 250 ms, ticked too early, then on time, then on time again. */
  lemma TwoBatchScenario(s: Session, a: seq<KeyEvent>, b: seq<KeyEvent>)
    requires s.bound && !s.blocking && s.keys == [Batch(a, 250), Batch(b, 250)]
    ensures Tick(s, Clocks([100], [])).session.keys == s.keys
    ensures var once := Tick(s, Clocks([260, 3], [])).session;
      && once.keys == [Batch(b, 250)]
      && Tick(once, Clocks([251], [])).session.keys == []
      && (s.mice == [] ==> !HasEventsInQueue(Tick(once, Clocks([251], [])).session))
  {
    assert s.keys[1..] == [Batch(b, 250)];
    assert Drain(s.keys, [100], s.info).queue == s.keys;
    assert Drain(s.keys[1..], [3], s.info).queue == s.keys[1..];
    assert Drain(s.keys, [260, 3], s.info).queue == [Batch(b, 250)];
    var once := Tick(s, Clocks([260, 3], [])).session;
    assert once == s.(keys := [Batch(b, 250)]);
    assert Drain(once.keys, [251], s.info).queue == [];
  }

  /** The worked case: one window titled "Untitled - Notepad" binds to the query "Notepad". */
  lemma NotepadScenario(s: Session, d: Desktop)
    requires Snapshot(d) == [WinInfo("Untitled - Notepad", true, 42, 7)]
    ensures BindTitle(s, "Notepad", d).ok
    ensures BindTitle(s, "Notepad", d).session.info.title == "Untitled - Notepad"
  {
    assert OccursAt("Untitled - Notepad", "Notepad", 11);
    ContainsIffOccurs("Untitled - Notepad", "Notepad");
  }
}

=== FILE: wrappers.dfy ===
/** The optional value used wherever the source signals "nothing found" or "call failed". */
module Wrappers {

  datatype Option<+T> = None | Some(value: T)
}
